=== FILE: README.md ===
# Time-clock core in Dafny

A model of the core of a small time-clock ("fichaje") web application. It has
two sides:

- **Server.** A PHP JSON API keeps workers, their clock-in records and the
  company profiles in flat JSON files.
- **Browser.** A single-page client decides how to submit a record, shows the
  day's hours, sorts the employee table and assembles a monthly PDF report.

The model covers these parts:

- **Records** (`records.dfy`, `reconcile.dfy`). A worker saves a record: a
  date, entry and exit times, and optional entry and exit signatures. At
  most two records (shifts 1 and 2) exist per worker and day.
  - The save handler validates the submission.
  - It then authorises it: only an administrator may save for someone else.
  - It then reconciles the submission with the day's existing records:
    - with no record, it creates shift 1;
    - with one record, it updates it when the new entry is within an hour of
      the old one, and otherwise creates shift 2;
    - with two records, it updates the one whose entry time is closer.
  - `WellShifted` is the invariant that every record's shift number is one
    more than the count of earlier records of the same worker and day. Every
    save and every user deletion preserves it.
- **Statistics** (`stats.dfy`).
  - The worker dashboard: hours today, this month and this year, the
    distinct days worked this month, and the daily average.
  - The administrator's dashboard: users, records dated today, and hours
    today.
- **Users** (`users.dfy`).
  - Registration, with the special administrator e-mail address.
  - Login, with its per-session limit of five failed attempts a minute.
  - A user's own password change.
  - The administrator's password reset, partial update, and delete. Delete
    also removes the user's records.
- **Company profiles** (`companies.dfy`). The administrator's save (create or
  update) and delete. The "default" profile cannot be deleted, and a one-off
  initialiser creates it.
- **The monthly report** (`report.dfy`).
  - The company header, with its fixed fallback, and the company seal.
  - The 31-row two-shift grid, with per-shift hours clamped at zero and the
    monthly total.
  - The choice of the worker's signature.
- **Browser decisions** (`client.dfy`).
  - Whether the clock-in form sends directly or asks to overwrite.
  - How it reuses stored signatures when a pad is left blank.
  - HTML escaping of user input.
  - The "hours today" widget.
  - The employee table's sort toggle and comparator.

`common.dfy` and `clock.dfy` hold the language semantics the code relies on:

- PHP `empty()` (true for `""` and `"0"`) and PHP `trim`.
- `strlen` as the UTF-8 byte length.
- JavaScript string truthiness and string order.
- PCRE's `$`, which without the `D` modifier also matches just before a final
  newline.
- `strtotime` on a bare `HH:MM`, where a failure becomes `0` in arithmetic.
- `new Date("2000-01-01T" + t)` and `padStart`.

Times are seconds. Sessions are an optional `Actor(id, role)`. The following
are parameters:

- the clock (`date('c')`, `time()`, today's date and midnight);
- `uniqid`;
- password hashing and verification;
- PHP's e-mail validation;
- the upload outcome of a signature pad.

Some behaviours of the code that the model keeps as written:

- **Two-record tie.** With two records and equal entry distances, the code
  updates the second record (`$diff1 < $diff2` picks the first only when
  it is strictly closer).
- **Negative shifts in statistics.** `calculateHours` does not clamp: a shift
  whose exit is before its entry subtracts hours (`Stats.ReversedShiftSubtracts`).
  Only the browser's report grid clamps at zero (`Report.GridClampsDashboardHours`).
- **Signatures.** The server writes the signatures it receives verbatim. The
  reuse of a stored signature happens in the browser.
- **Administrator already exists.** The "administrator already exists"
  branch of registration is unreachable. The e-mail duplicate check before
  it already rejects a second administrator address
  (`Users.AdminExistsIsUnreachable`).
- **Active today.** `activeToday` counts records dated today, not distinct
  workers (`Stats.ActiveTodayCountsShifts`).
- **Direct send versus server.** The browser sends a second record directly
  when the day's only record is closed and the new entry is later than its
  exit. The server still overwrites that record when the two entries are
  under an hour apart (`Client.DirectSendMayOverwrite`).

## Model

| member | source | states |
|---|---|---|
| Common.Trim | api/companies.php:38-41 | the result is a contiguous slice of the input with no trimmable character at either end, and only trimmable characters were removed on either side |
| Common.TrimIdempotent | api/auth.php:187-191 | trimming an already trimmed value changes nothing |
| Common.Utf8Length | api/auth.php:51 | the byte length `strlen` measures lies between the character count and four times it |
| Clock.ClockRoundTrip | api/fichajes.php:73 | every `HH:MM` the time pattern accepts, with hour below 24 and minute below 60, is exactly the canonical rendering of its minute of the day |
| Clock.ClockStringRoundTrip | api/fichajes.php:73 | rendering a minute of the day and reading it back gives sixty times that minute in seconds |
| Clock.StrToTimeDifference | api/stats.php:114-119 | for two readable times, the difference of their `strtotime` values is the difference of their seconds of day, whatever the day |
| Clock.StrToTimeFailureIsFar | api/fichajes.php:120-125 | an unreadable entry time parses to 0, so it is always at least an hour away from any readable time on a real date |
| Clock.JsClockSeconds | assets/js/app-v9.js:885-887 | the browser reads a time exactly when it is a valid `HH:MM`, and the value is less than one day |
| Clock.SplitMinutes | assets/js/app-v9.js:1812-1814 | on an `HH:MM` string the split gives hours times 60 plus minutes; strings the time pattern rejects give no number |
| Clock.DecimalRoundTrip | assets/js/app-v9.js:872 | the decimal rendering of a number reads back as that number |
| Clock.PadStart2 | assets/js/app-v9.js:872 | a string of length two or more is unchanged; a shorter one becomes two characters ending with the original |
| Clock.DateKeyRoundTrip | assets/js/app-v9.js:872 | for a four-digit year, a month and a day 1..31, the row key has `YYYY-MM-DD` shape and reads back as that year, month number and day |
| Records.MatchIndices | api/fichajes.php:93-98 | every collected index points at a record of that worker and date, and there are no more indices than records |
| Records.MatchIndicesComplete | api/fichajes.php:93-98 | the collected indices are strictly increasing and include every record of that worker and date |
| Records.MatchIndicesAppend | api/fichajes.php:116 | appending a record adds its index to a day's list exactly when it belongs to that worker and day |
| Records.MatchIndicesUpdate | api/fichajes.php:129 | overwriting a record with one of the same worker and date leaves every day's list unchanged |
| Records.MatchIndicesPrefix | api/fichajes.php:93-98 | the j-th match of a day has exactly j matches of the same day before it |
| Records.UserRecords | api/fichajes.php:33-35 | the filtered list holds exactly the records of that worker |
| Records.WithoutUser | api/auth.php:155-158 | the filtered list holds exactly the records of every other worker |
| Records.FiltersDistribute | api/auth.php:155-158 | both filters distribute over concatenation |
| Records.FiltersPartition | api/auth.php:155-158 | the two filters split the records without loss: their sizes add up to the whole |
| Records.WithoutUserKeepsOtherDays | api/auth.php:155-158 | removing one worker's records leaves every other worker's day with the same number of records |
| Records.WellShiftedAt | api/fichajes.php:112-135 | in a well-shifted collection, a record's shift is one more than the number of earlier records of its worker and day, which is below two |
| Records.WellShiftedAtMostTwo | api/fichajes.php:112-157 | a well-shifted collection has at most two records per worker and day |
| Records.WellShiftedPositions | api/fichajes.php:112-135 | a day's first record carries shift 1 and its second carries shift 2 |
| Records.WellShiftedAppend | api/fichajes.php:112-135 | appending a record whose shift is one more than the day's count, while that count is below two, keeps the invariant |
| Records.WellShiftedUpdate | api/fichajes.php:125-129 | overwriting a record with one of the same worker, date and shift keeps the invariant |
| Records.WithoutUserWellShifted | api/auth.php:155-158 | removing a worker's records keeps the invariant |
| Reconcile.ValidationError | api/fichajes.php:67-83 | a submission passes exactly when each non-empty date or time matches its pattern and the user, date and entry time are non-empty; a passing one has a well-formed date and entry time |
| Reconcile.SaveFichaje | api/fichajes.php:54-163 | no session gives 401; a validation failure gives that error; a non-administrator saving for someone else gives 403; the save succeeds exactly when none of these applies, and then reconciles the day |
| Reconcile.ReconcileDay | api/fichajes.php:93-158 | the written record carries every submitted field, signatures included, and `updatedAt` now; only the chosen slot changes; no matches creates shift 1; one match within an hour is overwritten, keeping its shift and creation time; one match an hour or more away adds shift 2; with two matches the strictly closer first one becomes shift 1, otherwise the second becomes shift 2 |
| Reconcile.ReconcileDayLists | api/fichajes.php:112-157 | a save changes no other worker-day's list; its own day either keeps its list or gains the new index; a day with two records never gains a third |
| Reconcile.SaveKeepsAtMostTwo | api/fichajes.php:112-157 | if no day had more than two records, none has after a save, and the store grows by at most one record |
| Reconcile.SavePreservesWellShifted | api/fichajes.php:111-157 | every successful save keeps the shift invariant |
| Reconcile.SameShiftByClock | api/fichajes.php:120-125 | for readable times, "within an hour" means the seconds of day differ by less than 3600 either way |
| Reconcile.EntryDistanceOfClocks | api/fichajes.php:141-146 | for readable times, the distance is the absolute difference of their seconds of day |
| Reconcile.AfternoonCorrectionUpdatesShiftTwo | api/fichajes.php:136-157 | with shifts at 08:00 and 13:00, a 13:05 entry overwrites shift 2, keeping its creation time and leaving shift 1 alone |
| Stats.WorkedDates | api/stats.php:53-55 | the collected dates are pairwise distinct and are exactly the dates with the month prefix |
| Stats.DaysWorked | api/stats.php:49-65 | the days worked are the number of distinct dates in the month, counted whether or not the record is complete |
| Stats.AverageDailyHours | api/stats.php:68 | with no day worked the average is 0; otherwise the average times the days is the month's hours |
| Stats.WorkedSeconds | api/stats.php:44-45 | a record with a missing time adds nothing; a complete record with readable times adds its exit's seconds of day minus its entry's, negative when the exit is earlier |
| Stats.SecondsOnBounds | api/stats.php:42-47 | today's total is 0 when no complete record is dated today, and never negative unless some record subtracts |
| Stats.SecondsWithPrefixBounds | api/stats.php:49-62 | the month's and the year's totals are 0 without a complete record under the prefix, and never negative unless some record subtracts |
| Stats.WorkerStats | api/stats.php:42-68 | today's, the month's and the year's totals are the sums over records of that date or prefix; the days worked are the number of distinct month dates; the average is the month's hours per day worked |
| Stats.Dashboard | api/stats.php:20-80 | no session gives 401; a non-administrator asking for another worker gives 403; otherwise each figure is taken over the requested worker's records only: today's, the month's and the year's sums, the distinct month dates, and the average per day worked |
| Stats.UserRecordsIdempotent | api/stats.php:27-29 | filtering a worker's records twice is filtering once |
| Stats.DashboardSeesOnlyOwnRecords | api/stats.php:27-29 | other workers' records never change a worker's dashboard |
| Stats.RecordContribution | api/stats.php:49-52 | one more record adds its exit minus entry to the month exactly when its date has the prefix and both times are set |
| Stats.ReversedShiftSubtracts | api/stats.php:114-119 | a 17:00 to 09:00 record subtracts eight hours |
| Stats.TodayMonthYearOrdered | api/stats.php:42-63 | when no record has negative hours, today's hours are at most the month's, and the month's at most the year's |
| Stats.DashboardOrdered | api/stats.php:42-63 | the same ordering holds for the dashboard the handler returns |
| Stats.TwoShiftsOneDay | api/stats.php:53-56 | two shifts on one date, one of them still open, count as one day worked |
| Stats.RecordsOn | api/stats.php:95-97 | the count is the number of positions holding a record of that date |
| Stats.AdminDashboard | api/stats.php:82-112 | no session gives 401; a signed-in non-administrator gets 403; only an administrator succeeds; the user count is the list's length; "active today" counts records of today; the hours are today's over all workers |
| Stats.ActiveTodayCountsShifts | api/stats.php:96-97 | one worker with two shifts today counts as two active users |
| Stats.TodaySplitsByWorker | api/stats.php:95-101 | today's total over everyone is one worker's today plus everyone else's |
| Users.RoleFor | api/auth.php:356-368 | the role is "admin" exactly for the administrator e-mail address and "employee" otherwise |
| Users.Register | api/auth.php:320-391 | a missing trimmed field fails first, then an invalid e-mail address, then a taken e-mail address, then a taken DNI; success exactly when none of these applies; the new user is appended with trimmed fields, the given id, hash and time, role `admin` for the administrator address and `employee` for every other, and no forced-change flag, company profile or main signature |
| Users.AdminExistsIsUnreachable | api/auth.php:356-365 | registration never answers "administrator already exists" |
| Users.AdminRegistersOnce | api/auth.php:342-365 | after the administrator address has registered, a second registration with it fails |
| Users.FirstWithId | api/auth.php:59-60 | the loop finds the first user with that id, and finds none exactly when there is none |
| Users.RemoveUser | api/auth.php:141-148 | the remaining users are exactly those with another id, and the list shrinks when the id was present |
| Users.RemoveUserDistributes | api/auth.php:141-148 | removal distributes over concatenation |
| Users.AdminDeleteUser | api/auth.php:118-165 | non-administrators get 403; an empty id gets 400; deleting yourself is refused; an unknown id gets 404; success exactly for another existing non-empty id; the user and all the user's records, and nothing else, are removed |
| Users.AdminDeleteKeepsWellShifted | api/auth.php:154-162 | deleting a user keeps the records' shift invariant |
| Users.Patched | api/auth.php:187-191 | a field absent from the input keeps its value; a present one becomes its trimmed input |
| Users.ApplyPatch | api/auth.php:184-192 | each of the five text fields becomes the trimmed value when present in the request and stays as it was when absent; the company profile is copied verbatim when given; id, password, role, creation time, forced-change flag and signature are never touched |
| Users.ApplyPatchIdempotent | api/auth.php:184-192 | applying the same update twice equals applying it once |
| Users.EmptyPatchChangesNothing | api/auth.php:184-192 | an update with no fields leaves the user unchanged |
| Users.AdminUpdateUser | api/auth.php:167-205 | non-administrators get 403; an empty id gets 400; an unknown id gets 404; success exactly for an existing non-empty id; only the first user with that id is patched |
| Users.ChangePassword | api/auth.php:42-81 | no session gives 401; fewer than six bytes is refused with 400; a session user missing from the list gets 404; success exactly when the session user exists; that user alone gets the new hash, loses the forced-change flag, and becomes the session user |
| Users.AdminResetPassword | api/auth.php:83-116 | non-administrators get 403; an empty id gets 400; an unknown id gets 404; success exactly for an existing non-empty id; only that user gets the temporary hash and the forced-change flag |
| Users.ResetThenChangeClearsFlag | api/auth.php:100-108 | a reset sets the forced-change flag, and the user's next valid password change clears it |
| Users.FirstWithEmail | api/auth.php:296-301 | the login lookup finds a user with that e-mail address exactly when one exists, and it is the first such user |
| Users.CurrentWindow | api/auth.php:268-278 | a missing or expired (over 60 seconds) window restarts at zero; otherwise the stored window is kept |
| Users.Login | api/auth.php:262-318 | five attempts in the window block with 429 and leave the counter alone; each other outcome happens exactly in its own case: missing credentials, invalid address, unknown address, wrong password for the first user with the address, or success, which returns that first user; only unknown address and wrong password increment the counter |
| Users.LoginBlockedWithinWindow | api/auth.php:273-278 | within a minute of the window start, a counter of five blocks every attempt, whatever the credentials |
| Users.LoginCountBounded | api/auth.php:273-311 | the attempt counter never exceeds five |
| Users.AtMostFiveFailuresPerWindow | api/auth.php:264-311 | within one window, at most five attempts in total fail on their credentials, and the window does not move |
| Companies.DefaultCompany | api/init_default_company.php:23-32 | the default profile has id "default", the fixed name, CIF, address and CCC, no seal, and the default flag |
| Companies.FirstCompany | api/companies.php:52-53 | the save loop stops at the first profile with that id, and finds none exactly when there is none |
| Companies.Overwrite | api/companies.php:53-60 | an update sets the trimmed name, CIF, address and CCC, keeps the id, default flag and creation time, and replaces the seal only with a non-empty one |
| Companies.NewCompany | api/companies.php:66-76 | a created profile has the trimmed fields, the seal as given, the creation time, and no default flag |
| Companies.StoreCompany | api/companies.php:50-76 | afterwards the id exists; an existing id updates only its first profile in place; a new id is appended |
| Companies.SaveCompany | api/companies.php:34-80 | non-administrators get 403; an empty trimmed name or CIF gets 400; success exactly when both are non-empty; the stored list then follows the update or append rule for the given or fresh id |
| Companies.SaveCompanyIdempotent | api/companies.php:34-80 | saving the same profile, with its id, twice leaves the list as after the first save |
| Companies.StoreCompanyIdempotent | api/companies.php:50-76 | storing the same input under the same id twice equals storing it once |
| Companies.OverwriteIdempotent | api/companies.php:53-60 | updating a profile twice with the same input equals updating once |
| Companies.StoreFixedPoint | api/companies.php:52-64 | storing an input that its first matching profile already reflects leaves the list unchanged |
| Companies.FirstCompanyIs | api/companies.php:52-58 | a profile with the id and none before it is the one the save's lookup finds |
| Companies.RemoveCompany | api/companies.php:97-103 | the remaining profiles are exactly those with another id, and the size is unchanged exactly when no profile had the id |
| Companies.RemoveCompanyDistributes | api/companies.php:97-105 | removal over a concatenation is the concatenation of the removals, so the profiles that stay keep their order and multiplicity |
| Companies.RemoveCompanySingle | api/companies.php:97-99 | a single profile stays exactly when its id differs |
| Companies.DeleteCompany | api/companies.php:82-107 | non-administrators get 403; an empty id gets 400; the default id is refused; an id no profile has gets 404; success exactly for an existing non-empty non-default id; the list written is the removal of that id, with the other profiles in their order |
| Companies.DefaultSurvivesDelete | api/companies.php:92-94 | every successful delete keeps the default profile |
| Companies.SaveThenDeleteRestores | api/companies.php:66-105 | creating a new profile and then deleting it restores the original list |
| Companies.RemoveAbsent | api/companies.php:97-103 | filtering out an absent id changes nothing |
| Companies.InitDefaultCompany | api/init_default_company.php:5-41 | non-administrators get 403; the default is created exactly when no profile carries the default flag, and is put first; afterwards a default profile always exists |
| Companies.InitDefaultIdempotent | api/init_default_company.php:13-40 | running the initialiser again creates nothing and changes nothing |
| Companies.InitKeepsProfiles | api/init_default_company.php:35 | every existing profile is kept, in order, after the possibly inserted default |
| Report.ProfileFor | assets/js/app-v9.js:1526-1546 | with no profile id there is no profile; a found profile is in the list and has that id; an existing id is always found |
| Report.CompanyHeader | assets/js/app-v9.js:813-816 | without a profile the fixed header is printed; with one, its fields are printed, and an empty address falls back to the name |
| Report.DefaultProfileMatchesFallback | assets/js/app-v9.js:813-816 | the server's default profile prints the same header as no profile at all |
| Report.CompanySeal | assets/js/app-v9.js:949-952 | a seal is printed exactly when the profile has a non-empty one, and it is that one |
| Report.FirstWithShift | assets/js/app-v9.js:873-875 | the lookup finds the first record of the date with that shift, and finds none exactly when there is none |
| Report.ShiftSeconds | assets/js/app-v9.js:883-895 | a shift counts exactly when both times are set and readable and the exit is later, and then it counts the exit minus the entry; it is never negative |
| Report.GridClampsDashboardHours | assets/js/app-v9.js:883-888 | on readable times, the grid shows the dashboard's amount when positive and 0 otherwise |
| Report.SignatureCell | assets/js/app-v9.js:903-911 | a signature cell is filled exactly when the stored signature is a non-empty string |
| Report.SlotOf | assets/js/app-v9.js:874-880 | a missing shift gives empty times and no signatures; a found one shows its times, its clamped seconds and its signatures |
| Report.Cell | assets/js/app-v9.js:897-901 | a total cell is blank exactly when the seconds are zero, and otherwise shows them |
| Report.DayRowFor | assets/js/app-v9.js:871-880 | each row looks up the date key of its own day, and a day without records shows two empty slots |
| Report.DayRowShowsRecords | assets/js/app-v9.js:871-880 | for one well-shifted worker, each day row shows that worker's first and second records of the date, and an empty slot where the day has no such record |
| Report.SumDaysZero | assets/js/app-v9.js:897-901 | the monthly total is zero exactly when every day adds nothing |
| Report.TotalBlankIffDaysBlank | assets/js/app-v9.js:897-934 | the total row's cell is blank exactly when every day's total cell is blank |
| Report.GridRowsAt | assets/js/app-v9.js:866-872 | the row in position i is the row of day i + 1 |
| Report.BuildGrid | assets/js/app-v9.js:863-901 | the loop produces exactly 31 rows, one for each day 1..31 in order, and accumulates the sum of the day totals as the monthly total |
| Report.GridKeysDistinct | assets/js/app-v9.js:872 | different days of a month look up different, well-formed keys |
| Report.FirstSlotIsFirstMatch | assets/js/app-v9.js:873-874 | for a well-shifted worker, slot 1 shows the day's first record, or nothing when the day has none |
| Report.SecondSlotIsSecondMatch | assets/js/app-v9.js:873-875 | for a well-shifted worker, slot 2 shows the day's second record, or nothing when the day has fewer than two |
| Report.LatestSigned | assets/js/app-v9.js:1513-1518 | the chosen record has an exit signature, no signed record has a later date, and every signed record before it has an earlier date (a stable sort's head) |
| Report.LatestSignedUnique | assets/js/app-v9.js:1513-1518 | any signed record with those two properties is the one chosen |
| Report.WorkerSignature | assets/js/app-v9.js:1511-1520 | a stored main signature wins; otherwise, whenever some record carries an exit signature, the result is the signature of a signed record that no other signed record post-dates, the earliest in array order among those of equal date (as the stable sort leaves it first); nothing when no record is signed |
| Client.SubmitDecision | assets/js/app-v9.js:373-419 | no entry time refuses; the form sends directly exactly when the day has no record, or its only record is closed and ends before the new entry; otherwise it offers to overwrite the first record of that worker and day |
| Client.PadSignature | assets/js/app-v9.js:425-437 | a drawn pad gives its upload's URL, or nothing if the upload failed; a blank pad reuses the overwritten record's signature, or nothing for a new record |
| Client.FormSubmission | assets/js/app-v9.js:421-443 | the submission carries the form's date and times and the selected worker's name; a drawn pad contributes the result of its upload; blank pads carry the signatures of the record being overwritten, or none |
| Client.OverwriteKeepsSignaturesOfSoleRecord | assets/js/app-v9.js:425-437 | overwriting a day's only record within the hour with blank pads keeps that record's signatures |
| Client.OverwriteOfSecondCarriesFirstSignatures | assets/js/app-v9.js:411-437 | on a two-record day, the form offers the first record, but when the entry is no closer to it the server overwrites the second with the first's signatures |
| Client.OverwriteMayMoveSignatures | assets/js/app-v9.js:411-437 | a concrete afternoon correction stores the morning's entry signature on the afternoon shift |
| Client.DirectSendAddsSecondShift | assets/js/app-v9.js:397-400 | a direct send for a day with one record more than an hour earlier appends shift 2 and changes nothing else |
| Client.DirectSendMayOverwrite | assets/js/app-v9.js:397-400 | a direct send after a closed 08:00-08:30 record with a 08:45 entry overwrites that record instead of adding one |
| Client.ReplaceAll | assets/js/app-v9.js:685 | a replacement without the character removes every occurrence, and a string without it is unchanged |
| Client.ReplaceAllDistributes | assets/js/app-v9.js:685 | global replacement distributes over concatenation |
| Client.EscapeAll | assets/js/app-v9.js:683-686 | the escaped text contains no `<`, `>`, `"` or `'` |
| Client.EscapeDistributes | assets/js/app-v9.js:685 | the replacement chain distributes over concatenation |
| Client.EscapeIsPerCharacter | assets/js/app-v9.js:685 | the chain of five replacements equals escaping each character on its own, so `&` is never escaped twice |
| Client.SanitizeInput | assets/js/app-v9.js:683-686 | non-strings pass unchanged; a string comes back escaped with no `<`, `>`, `"` or `'` |
| Client.EscapeRoundTrip | assets/js/app-v9.js:683-686 | unescaping the sanitised text gives back the original string |
| Client.JsRemainder | assets/js/app-v9.js:1816 | JavaScript `%` agrees with the mathematical remainder on non-negative operands, stays strictly between minus and plus the divisor, and takes the sign of the dividend: a negative dividend gives the negated remainder of its absolute value, so never a positive result |
| Client.FirstToday | assets/js/app-v9.js:1806 | the widget's record is the worker's first record of today, and there is none exactly when the worker has none today |
| Client.ShownHours | assets/js/app-v9.js:1811-1819 | hours are the floor of the span over 60 and minutes add up to the span when it is not negative; for a negative span the minutes lie in -59..0, so one that is not whole hours is shown an hour short |
| Client.TodayHours | assets/js/app-v9.js:1804-1821 | the widget shows nothing without a record today; otherwise it shows the first of today's records with floor hours and truncated minutes, as the code does |
| Client.TodayHoursNightShift | assets/js/app-v9.js:1812-1817 | a 22:00 to 06:30 record is shown as -16 h -30 min, -990 minutes for a span of -930 |
| Client.ShownHoursCorrected | assets/js/app-v9.js:1812-1817 | hours and minutes always add up to the span, with minutes in 0..59 |
| Client.ShownHoursAgreeForward | assets/js/app-v9.js:1812-1817 | for a non-negative span the code as written and the corrected version show the same thing |
| Client.TodayHoursCorrected | assets/js/app-v9.js:1804-1821 | the corrected widget shows the first of today's records with parts that add up to its span |
| Client.TodayHoursDifferIff | assets/js/app-v9.js:1812-1817 | the widget as written and the corrected one differ exactly when today's first record ends before it starts by a span that is not a whole number of hours |
| Client.ShownHoursDifferIff | assets/js/app-v9.js:1812-1817 | on a negative span the two renderings differ exactly when both times are set and the span is not a whole number of hours |
| Client.ClickColumn | assets/js/app-v9.js:1610-1615 | clicking makes the column current; the same column flips the direction; a new one starts ascending |
| Client.ClickTwiceRestores | assets/js/app-v9.js:1610-1615 | clicking the current column twice restores the sort state |
| Client.Compare | assets/js/app-v9.js:1617-1641 | the comparator is 0 exactly on equal keys, and negative exactly when the first key is smaller in the chosen direction |
| Client.CompareAntisymmetric | assets/js/app-v9.js:1639-1641 | swapping the keys, or flipping the direction, negates the comparison |
| Client.SortKey | assets/js/app-v9.js:1620-1634 | the name column sorts by first name, a space and surnames; the DNI column by the DNI; the last clock-in column by "" for a user without records, and otherwise by the date of one of the user's records that none of the user's other records exceeds |
| Client.LastFichajeDate | assets/js/app-v9.js:1631-1636 | a user without records sorts by ""; otherwise by a date of one of that user's records that no other record of the user exceeds |
| Client.UsersWithoutRecordsSortFirst | assets/js/app-v9.js:1631-1641 | in the "last clock-in" order, a user without records comes before one with a record when ascending and after when descending |

## Left out

- Reading and writing the JSON files, sessions as storage, HTTP routing and status handling, the PDF library, the DOM, the canvas and concurrent requests are not modelled. Each handler is a pure function from its inputs, including the stored lists, to a result.
- `config.php`, `upload.php`, `get_signature.php`, `debug_auth.php` and `healthcheck.php` are not part of this model. Neither are `handleUpdateProfile`, logout, session checks and the user list in `auth.php`, or the "all records" listing in `fichajes.php`.
- `filter_var(..., FILTER_SANITIZE_FULL_SPECIAL_CHARS)` on the save handler's and password reset's inputs, and `FILTER_SANITIZE_EMAIL` on login, are not modelled. The model takes the submission as it is after sanitising.
- Rounding (`round` in the statistics, `toFixed(2)` in the grid) is not modelled. Hours are exact seconds, and the average is an exact real.
- `strtotime` and `new Date` on times outside `00:00`-`23:59`, such as "24:00", are treated as unreadable. PHP may read some of them.
- Stats.WorkedSeconds: `strtotime` on a bare time reads it on the current day. The model takes that day's midnight as a parameter and does not model leap seconds or daylight-saving jumps.
- Clock.SplitMinutes: states the value only for the exact `HH:MM` shape and for strings the time pattern rejects. The model reads every other string as unreadable, although `Number` would read some of them (such as "8:00" or ":5"). The server's pattern rejects all of those, so no stored record has one.
- Client.Compare: compares strings by code points. JavaScript compares UTF-16 code units, which differ only outside the Basic Multilingual Plane. The name column's `toLowerCase` is not modelled.
- Client.SortKey: the DNI key `a.dni || ''` is modelled as the DNI itself, because a user's DNI is always a string in the model and a missing one reads as "", which is what the fallback gives. The name key leaves out `toLowerCase`, as for Client.Compare.
- Client.LastFichajeDate and Report.LatestSigned: order dates as strings, where the code builds `new Date(...)`. The two agree on `YYYY-MM-DD` dates. Malformed dates, which give `NaN` in JavaScript, are not modelled.
- `Array.prototype.sort` itself is not modelled. Only the comparator, the direction toggle and the head of the date sort are.
- Client.SubmitDecision: the `currentUser.id || currentUser.email` fallback is not modelled. The user id is given.
- The browser's conversion of signature and seal URLs to data URLs, the reload of company profiles before a report, and the upload request itself are not modelled. The upload outcome is a parameter.
- Report.WorkerSignature: the canvas fallback for the signed-in worker's own report (lines 945-946 of `assets/js/app-v9.js`) is not modelled.
- Removing the password hash from the session copy after login, registration and password change is not modelled. The session user is the stored user.
- Records.MatchIndicesPrefix: states only how many matches precede the j-th one, not the full prefix list. That is all the shift invariant needs.

## Findings

| source | as written | input that shows it | evidently intended | confidence | as-written member | corrected member |
|---|---|---|---|---|---|---|
| assets/js/app-v9.js:1812-1817 | hours are `Math.floor(total / 60)` but minutes are JavaScript's truncating `total % 60`, so for a negative span the two parts do not add up to the span | a record today from 22:00 to 06:30: the span is -930 minutes, shown as "-16h -30m", which is -990 minutes | hours and minutes that add up to the span (here -16 h + 30 min) | not executed | Client.TodayHours and Client.ShownHours (with Client.TodayHoursNightShift) | Client.TodayHoursCorrected and Client.ShownHoursCorrected (with Client.TodayHoursDifferIff and Client.ShownHoursAgreeForward) |

=== FILE: client.dfy ===
/** Decisions the browser makes before and after talking to the API: the
    clock-in form's "send directly or ask to overwrite" rule and its reuse
    of stored signatures, HTML escaping of user text, the "hours today"
    widget, and the employee table's sort toggle and comparator. */
module Client {
  import opened Common
  import opened Clock
  import opened Records
  import opened Reconcile
  import opened Users

  // ----- the clock-in form -----

  /** What the form does on submit: refuse without an entry time, send the
      record directly, or ask to overwrite the record at `index`. */
  datatype Decision = MissingEntry | SendNew | ConfirmOverwrite(index: nat)

  /** `registerFichaje`. The day's records are the worker's records of that
      date; the form's own sort only picks which record is "last", and the
      direct-send test is only made when there is exactly one. */
  function SubmitDecision(rs: seq<Record>, userId: string, date: string, entryTime: string): (d: Decision)
    ensures d == MissingEntry <==> !JsTruthy(entryTime)
    ensures var ms := MatchIndices(rs, userId, date);
      JsTruthy(entryTime) ==>
        (d == SendNew <==>
           |ms| == 0 || (|ms| == 1 && JsTruthy(rs[ms[0]].exitTime) && LexLess(rs[ms[0]].exitTime, entryTime)))
    ensures d.ConfirmOverwrite? ==>
      && d.index < |rs| && SameDay(rs[d.index], userId, date)
      && forall j :: 0 <= j < d.index ==> !SameDay(rs[j], userId, date)
  {
    if !JsTruthy(entryTime) then MissingEntry
    else
      var ms := MatchIndices(rs, userId, date);
      if |ms| == 0 then SendNew
      else if |ms| < 2 && JsTruthy(rs[ms[0]].exitTime) && LexLess(rs[ms[0]].exitTime, entryTime) then SendNew
      else
        MatchIndicesComplete(rs, userId, date);
        assert forall j :: 0 <= j < ms[0] && SameDay(rs[j], userId, date) ==> j in ms;
        ConfirmOverwrite(ms[0])
  }

  /** A signature pad at submit time: untouched, or drawn and uploaded, the
      upload giving the stored URL or failing. */
  datatype Pad = Blank | Drawn(uploaded: Option<string>)

  /** `processFichaje`'s choice for one signature: a drawn pad gives its
      upload's URL (None when the upload failed); a blank pad reuses the
      signature stored on the record being overwritten, and gives None for
      a new record. */
  function PadSignature(pad: Pad, reused: Option<Option<string>>): (sig: Option<string>)
    ensures pad.Drawn? ==> sig == pad.uploaded
    ensures pad.Blank? && reused.Some? ==> sig == reused.value
    ensures pad.Blank? && reused.None? ==> sig.None?
  {
    match pad
    case Drawn(u) => u
    case Blank => if reused.Some? then reused.value else None
  }

  /** The submission the form sends. `existing` is the index the overwrite
      targets, None for a direct send. */
  function FormSubmission(userId: string, userName: string, date: string, entryTime: string, exitTime: string,
                          entryPad: Pad, exitPad: Pad, rs: seq<Record>, existing: Option<nat>): (sub: Submission)
    requires existing.Some? ==> existing.value < |rs|
    ensures sub.userId == userId && sub.date == date && sub.entryTime == entryTime && sub.exitTime == exitTime
    ensures existing.Some? && entryPad.Blank? ==> sub.entrySignature == rs[existing.value].entrySignature
    ensures existing.Some? && exitPad.Blank? ==> sub.exitSignature == rs[existing.value].exitSignature
    ensures existing.None? && entryPad.Blank? ==> sub.entrySignature.None?
    ensures existing.None? && exitPad.Blank? ==> sub.exitSignature.None?
    ensures entryPad.Drawn? ==> sub.entrySignature == entryPad.uploaded
    ensures exitPad.Drawn? ==> sub.exitSignature == exitPad.uploaded
    ensures sub.userName == userName
  {
    var entrySig := PadSignature(entryPad, if existing.Some? then Some(rs[existing.value].entrySignature) else None);
    var exitSig := PadSignature(exitPad, if existing.Some? then Some(rs[existing.value].exitSignature) else None);
    Submission(userId, userName, date, entryTime, exitTime, entrySig, exitSig)
  }

  /** When the day has one record and the overwrite lands on it (the new
      entry within the hour), blank pads carry that record's signatures
      through the server's verbatim write: nothing is lost. */
  lemma OverwriteKeepsSignaturesOfSoleRecord(session: Actor, rs: seq<Record>, userId: string, userName: string,
                                             date: string, entryTime: string, exitTime: string, now: string)
    requires MaySaveFor(session, userId)
    requires |MatchIndices(rs, userId, date)| == 1
    requires var k := MatchIndices(rs, userId, date)[0];
      EntryDistance(entryTime, rs[k].entryTime) < SameShiftSeconds
    requires var sub := Submission(userId, userName, date, entryTime, exitTime, None, None);
      ValidationError(sub).None?
    ensures var k := MatchIndices(rs, userId, date)[0];
      var sub := FormSubmission(userId, userName, date, entryTime, exitTime, Blank, Blank, rs, Some(k));
      var r := SaveFichaje(Some(session), sub, rs, now);
      && r.Ok? && r.value.index == k
      && r.value.records[k].entrySignature == rs[k].entrySignature
      && r.value.records[k].exitSignature == rs[k].exitSignature
  {
    var k := MatchIndices(rs, userId, date)[0];
    var sub := FormSubmission(userId, userName, date, entryTime, exitTime, Blank, Blank, rs, Some(k));
    assert ValidationError(sub) == ValidationError(Submission(userId, userName, date, entryTime, exitTime, None, None));
  }

  /** With two records of the day the form always targets the first, and
      reuses its signatures for blank pads; when the new entry is no closer
      to the first record's entry than to the second's, the server
      overwrites the second record with the first record's signatures. */
  lemma OverwriteOfSecondCarriesFirstSignatures(session: Actor, rs: seq<Record>, userId: string, userName: string,
                                                date: string, entryTime: string, exitTime: string, now: string)
    requires MaySaveFor(session, userId)
    requires |MatchIndices(rs, userId, date)| == 2
    requires var ms := MatchIndices(rs, userId, date);
      EntryDistance(entryTime, rs[ms[0]].entryTime) >= EntryDistance(entryTime, rs[ms[1]].entryTime)
    requires ValidationError(Submission(userId, userName, date, entryTime, exitTime, None, None)).None?
    ensures var ms := MatchIndices(rs, userId, date);
      && SubmitDecision(rs, userId, date, entryTime) == ConfirmOverwrite(ms[0])
      && var sub := FormSubmission(userId, userName, date, entryTime, exitTime, Blank, Blank, rs, Some(ms[0]));
         var r := SaveFichaje(Some(session), sub, rs, now);
         && r.Ok? && r.value.index == ms[1]
         && r.value.records[ms[1]].entrySignature == rs[ms[0]].entrySignature
         && r.value.records[ms[1]].exitSignature == rs[ms[0]].exitSignature
  {
    var ms := MatchIndices(rs, userId, date);
    var sub := FormSubmission(userId, userName, date, entryTime, exitTime, Blank, Blank, rs, Some(ms[0]));
    assert ValidationError(sub) == ValidationError(Submission(userId, userName, date, entryTime, exitTime, None, None));
  }

  function MorningRecord(): Record {
    Record("u1", "Ana", "2024-03-04", "08:00", "12:00", Some("sig-morning"), Some("out-morning"), Some(1), "c1", "c1")
  }

  function AfternoonRecord(): Record {
    Record("u1", "Ana", "2024-03-04", "15:00", "19:00", Some("sig-afternoon"), Some("out-afternoon"), Some(2), "c2", "c2")
  }

  /** The 15:30-19:30 correction passes the handler's validation. */
  lemma AfternoonCorrectionIsValid()
    ensures ValidationError(Submission("u1", "Ana", "2024-03-04", "15:30", "19:30", None, None)).None?
  {
    assert IsDateShape("2024-03-04");
    assert IsClockShape("15:30") && IsClockShape("19:30");
  }

  /** 15:30 is nearer the 15:00 entry than the 08:00 one. */
  lemma AfternoonCorrectionIsNearerSecond()
    ensures EntryDistance("15:30", "08:00") >= EntryDistance("15:30", "15:00")
  {
    assert IsValidClock("15:30") && SecondsOfDay("15:30") == 55800;
    assert IsValidClock("08:00") && SecondsOfDay("08:00") == 28800;
    assert IsValidClock("15:00") && SecondsOfDay("15:00") == 54000;
    EntryDistanceOfClocks("15:30", "08:00");
    EntryDistanceOfClocks("15:30", "15:00");
  }

  /** The case happens: a 15:30 correction of the afternoon record ends up
      carrying the morning's entry signature. */
  lemma OverwriteMayMoveSignatures()
    ensures var rs := [MorningRecord(), AfternoonRecord()];
      var sub := FormSubmission("u1", "Ana", "2024-03-04", "15:30", "19:30", Blank, Blank, rs, Some(0));
      var r := SaveFichaje(Some(Actor("u1", "employee")), sub, rs, "now");
      && SubmitDecision(rs, "u1", "2024-03-04", "15:30") == ConfirmOverwrite(0)
      && r.Ok? && r.value.index == 1
      && r.value.records[1].entrySignature == Some("sig-morning")
  {
    var rs := [MorningRecord(), AfternoonRecord()];
    MatchIndicesPair(MorningRecord(), AfternoonRecord(), "u1", "2024-03-04");
    AfternoonCorrectionIsValid();
    AfternoonCorrectionIsNearerSecond();
    OverwriteOfSecondCarriesFirstSignatures(Actor("u1", "employee"), rs, "u1", "Ana", "2024-03-04", "15:30", "19:30", "now");
  }

  /** A direct send after a closed record is stored as the second shift when
      the new entry is at least an hour after the first entry. */
  lemma DirectSendAddsSecondShift(session: Actor, rs: seq<Record>, sub: Submission, now: string)
    requires MaySaveFor(session, sub.userId) && ValidationError(sub).None?
    requires SubmitDecision(rs, sub.userId, sub.date, sub.entryTime) == SendNew
    requires |MatchIndices(rs, sub.userId, sub.date)| == 1
    requires EntryDistance(sub.entryTime, rs[MatchIndices(rs, sub.userId, sub.date)[0]].entryTime) >= SameShiftSeconds
    ensures var r := SaveFichaje(Some(session), sub, rs, now);
      r.Ok? && r.value.records == rs + [r.value.written] && r.value.written.shift == Some(2)
  {
  }

  /** The 08:45-12:00 submission passes validation. */
  lemma QuarterToNineIsValid()
    ensures ValidationError(Submission("u1", "Ana", "2024-03-04", "08:45", "12:00", None, None)).None?
  {
    assert IsDateShape("2024-03-04") && IsClockShape("08:45") && IsClockShape("12:00");
  }

  /** 08:45 is within the hour of 08:00. */
  lemma QuarterToNineIsWithinTheHour()
    ensures EntryDistance("08:45", "08:00") == 2700
  {
    assert IsValidClock("08:45") && SecondsOfDay("08:45") == 31500;
    assert IsValidClock("08:00") && SecondsOfDay("08:00") == 28800;
    EntryDistanceOfClocks("08:45", "08:00");
  }

  /** But the form's test (entry after the last exit) and the server's
      (entry an hour after the last entry) differ: a short morning record
      followed by a new entry within the hour is sent directly and the
      server overwrites the morning record in place. */
  lemma DirectSendMayOverwrite()
    ensures var early := Record("u1", "Ana", "2024-03-04", "08:00", "08:30", None, None, Some(1), "c1", "c1");
      var sub := Submission("u1", "Ana", "2024-03-04", "08:45", "12:00", None, None);
      && SubmitDecision([early], "u1", "2024-03-04", "08:45") == SendNew
      && var r := SaveFichaje(Some(Actor("u1", "employee")), sub, [early], "now");
         && r.Ok? && |r.value.records| == 1 && r.value.records[0].entryTime == "08:45"
  {
    var early := Record("u1", "Ana", "2024-03-04", "08:00", "08:30", None, None, Some(1), "c1", "c1");
    var sub := Submission("u1", "Ana", "2024-03-04", "08:45", "12:00", None, None);
    MatchIndicesSingle(early, "u1", "2024-03-04");
    assert LexLess("08:30", "08:45");
    QuarterToNineIsValid();
    QuarterToNineIsWithinTheHour();
  }

  // ----- HTML escaping -----

  /** The value handed to `sanitizeInput`: a string or anything else. */
  datatype JsValue = JsString(s: string) | JsOther(tag: int)

  /** `s.replace(/c/g, rep)`. */
  function ReplaceAll(s: string, c: char, rep: string): (r: string)
    ensures c !in rep ==> c !in r
    ensures c !in s ==> r == s
    decreases |s|
  {
    if |s| == 0 then ""
    else (if s[0] == c then rep else [s[0]]) + ReplaceAll(s[1..], c, rep)
  }

  lemma {:induction false} ReplaceAllDistributes(a: string, b: string, c: char, rep: string)
    ensures ReplaceAll(a + b, c, rep) == ReplaceAll(a, c, rep) + ReplaceAll(b, c, rep)
    decreases |a|
  {
    if |a| > 0 {
      assert (a + b)[1..] == a[1..] + b;
      ReplaceAllDistributes(a[1..], b, c, rep);
    } else {
      assert a + b == b;
    }
  }

  /** The five passes in the order the code runs them, `&` first. */
  function Escape(s: string): (r: string) {
    ReplaceAll(ReplaceAll(ReplaceAll(ReplaceAll(ReplaceAll(s, '&', "&amp;"), '<', "&lt;"), '>', "&gt;"),
               '"', "&quot;"), '\'', "&#039;")
  }

  /** `sanitizeInput`: strings are escaped, anything else passes unchanged. */
  function SanitizeInput(v: JsValue): (r: JsValue)
    ensures v.JsOther? ==> r == v
    ensures v.JsString? ==> r.JsString? && '<' !in r.s && '>' !in r.s && '"' !in r.s && '\'' !in r.s
    ensures v.JsString? ==> r.s == EscapeAll(v.s)
  {
    match v
    case JsOther(_) => v
    case JsString(s) =>
      EscapeIsPerCharacter(s);
      JsString(Escape(s))
  }

  /** The entity for one character, the character itself when it needs none. */
  function EscapeChar(c: char): (e: string)
    ensures '<' !in e && '>' !in e && '"' !in e && '\'' !in e
  {
    if c == '&' then "&amp;"
    else if c == '<' then "&lt;"
    else if c == '>' then "&gt;"
    else if c == '"' then "&quot;"
    else if c == '\'' then "&#039;"
    else [c]
  }

  /** The reference escaping: every character replaced by its entity at once. */
  function EscapeAll(s: string): (r: string)
    ensures '<' !in r && '>' !in r && '"' !in r && '\'' !in r
    decreases |s|
  {
    if |s| == 0 then "" else EscapeChar(s[0]) + EscapeAll(s[1..])
  }

  lemma EscapeDistributes(a: string, b: string)
    ensures Escape(a + b) == Escape(a) + Escape(b)
  {
    ReplaceAllDistributes(a, b, '&', "&amp;");
    var a1, b1 := ReplaceAll(a, '&', "&amp;"), ReplaceAll(b, '&', "&amp;");
    ReplaceAllDistributes(a1, b1, '<', "&lt;");
    var a2, b2 := ReplaceAll(a1, '<', "&lt;"), ReplaceAll(b1, '<', "&lt;");
    ReplaceAllDistributes(a2, b2, '>', "&gt;");
    var a3, b3 := ReplaceAll(a2, '>', "&gt;"), ReplaceAll(b2, '>', "&gt;");
    ReplaceAllDistributes(a3, b3, '"', "&quot;");
    var a4, b4 := ReplaceAll(a3, '"', "&quot;"), ReplaceAll(b3, '"', "&quot;");
    ReplaceAllDistributes(a4, b4, '\'', "&#039;");
  }

  /** A pass over one character. */
  lemma ReplaceOne(x: char, c: char, rep: string)
    ensures ReplaceAll([x], c, rep) == if x == c then rep else [x]
  {
    assert [x][1..] == [];
  }

  /** On one character the five passes produce that character's entity:
      no later pass touches an entity an earlier pass wrote. */
  lemma EscapeOneChar(c: char)
    ensures Escape([c]) == EscapeChar(c)
  {
    if c == '&' {
      EscapeAmpersand();
    } else if c == '<' {
      EscapeLess();
    } else if c == '>' {
      EscapeGreater();
    } else if c == '"' {
      EscapeQuote();
    } else if c == '\'' {
      EscapeApostrophe();
    } else {
      ReplaceOne(c, '&', "&amp;");
      ReplaceOne(c, '<', "&lt;");
      ReplaceOne(c, '>', "&gt;");
      ReplaceOne(c, '"', "&quot;");
      ReplaceOne(c, '\'', "&#039;");
    }
  }

  lemma EscapeAmpersand()
    ensures Escape("&") == "&amp;"
  {
    ReplaceOne('&', '&', "&amp;");
    assert '<' !in "&amp;" && '>' !in "&amp;" && '"' !in "&amp;" && '\'' !in "&amp;";
  }

  lemma EscapeLess()
    ensures Escape("<") == "&lt;"
  {
    ReplaceOne('<', '&', "&amp;");
    ReplaceOne('<', '<', "&lt;");
    assert '>' !in "&lt;" && '"' !in "&lt;" && '\'' !in "&lt;";
  }

  lemma EscapeGreater()
    ensures Escape(">") == "&gt;"
  {
    ReplaceOne('>', '&', "&amp;");
    ReplaceOne('>', '<', "&lt;");
    ReplaceOne('>', '>', "&gt;");
    assert '"' !in "&gt;" && '\'' !in "&gt;";
  }

  lemma EscapeQuote()
    ensures Escape("\"") == "&quot;"
  {
    ReplaceOne('"', '&', "&amp;");
    ReplaceOne('"', '<', "&lt;");
    ReplaceOne('"', '>', "&gt;");
    ReplaceOne('"', '"', "&quot;");
    assert '\'' !in "&quot;";
  }

  lemma EscapeApostrophe()
    ensures Escape("'") == "&#039;"
  {
    ReplaceOne('\'', '&', "&amp;");
    ReplaceOne('\'', '<', "&lt;");
    ReplaceOne('\'', '>', "&gt;");
    ReplaceOne('\'', '"', "&quot;");
    ReplaceOne('\'', '\'', "&#039;");
  }

  /** The chain of global replacements equals escaping each character on
      its own: because `&` goes first, no entity is escaped twice. */
  lemma {:induction false} EscapeIsPerCharacter(s: string)
    ensures Escape(s) == EscapeAll(s)
    decreases |s|
  {
    if |s| > 0 {
      assert s == [s[0]] + s[1..];
      EscapeDistributes([s[0]], s[1..]);
      EscapeOneChar(s[0]);
      EscapeIsPerCharacter(s[1..]);
    }
  }

  /** Reads entities back: the inverse the browser applies when it shows
      escaped text. */
  function Unescape(s: string): string
    decreases |s|
  {
    if |s| == 0 then ""
    else if |s| >= 5 && s[..5] == "&amp;" then "&" + Unescape(s[5..])
    else if |s| >= 4 && s[..4] == "&lt;" then "<" + Unescape(s[4..])
    else if |s| >= 4 && s[..4] == "&gt;" then ">" + Unescape(s[4..])
    else if |s| >= 6 && s[..6] == "&quot;" then "\"" + Unescape(s[6..])
    else if |s| >= 6 && s[..6] == "&#039;" then "'" + Unescape(s[6..])
    else [s[0]] + Unescape(s[1..])
  }

  /** Escaping loses nothing: reading the entities back gives the text. */
  lemma {:induction false} EscapeRoundTrip(s: string)
    ensures Unescape(SanitizeInput(JsString(s)).s) == s
    decreases |s|
  {
    EscapeIsPerCharacter(s);
    UnescapeEscapeAll(s);
  }

  /** Reading back an entity, or a plain character, followed by more text. */
  lemma UnescapeFront(c: char, rest: string)
    ensures Unescape(EscapeChar(c) + rest) == [c] + Unescape(rest)
  {
    if EscapeChar(c) != [c] {
      UnescapeEntity(c, rest);
    } else {
      UnescapePlain(c, rest);
    }
  }

  /** A character other than `&` reads back as itself. */
  lemma UnescapePlain(c: char, rest: string)
    requires c != '&'
    ensures Unescape([c] + rest) == [c] + Unescape(rest)
  {
    var t := [c] + rest;
    assert t[0] == c && t[1..] == rest;
    assert |t| >= 4 ==> t[..4][0] == c;
    assert |t| >= 5 ==> t[..5][0] == c;
    assert |t| >= 6 ==> t[..6][0] == c;
  }

  /** An entity reads back as the character it escapes. */
  lemma UnescapeEntity(c: char, rest: string)
    requires EscapeChar(c) != [c]
    ensures Unescape(EscapeChar(c) + rest) == [c] + Unescape(rest)
  {
    var e := EscapeChar(c);
    var t := e + rest;
    assert t[..|e|] == e && t[|e|..] == rest;
    assert t[1] == e[1];
  }

  lemma {:induction false} UnescapeEscapeAll(s: string)
    ensures Unescape(EscapeAll(s)) == s
    decreases |s|
  {
    if |s| > 0 {
      UnescapeEscapeAll(s[1..]);
      UnescapeFront(s[0], EscapeAll(s[1..]));
      assert s == [s[0]] + s[1..];
    }
  }

  // ----- the "hours today" widget -----

  /** What the widget shows: "0h 00m" when there is no complete record
      today, NaN parts when a time does not parse, else hours and minutes. */
  datatype HoursShown = NoHours | Unreadable | Shown(hours: int, minutes: int)

  /** JavaScript's `%`: the remainder takes the sign of the dividend. */
  function JsRemainder(a: int, b: int): (r: int)
    requires b > 0
    ensures a >= 0 ==> r == a % b
    ensures -b < r < b
    ensures a < 0 ==> r <= 0 && r == -JsRemainder(-a, b)
    decreases if a < 0 then 1 else 0
  {
    if a >= 0 then a % b else -((-a) % b)
  }

  /** The first of the worker's records dated today, as `find` returns. */
  function FirstToday(rs: seq<Record>, userId: string, today: string): (k: Option<nat>)
    ensures k.None? <==> |MatchIndices(rs, userId, today)| == 0
    ensures k.Some? ==> k.value == MatchIndices(rs, userId, today)[0] && k.value < |rs|
  {
    var ms := MatchIndices(rs, userId, today);
    if |ms| == 0 then None else Some(ms[0])
  }

  /** Minutes from entry to exit, when both parse. */
  function SpanMinutes(entryTime: string, exitTime: string): Option<int> {
    match (SplitMinutes(entryTime), SplitMinutes(exitTime))
    case (Some(entry), Some(exit)) => Some(exit - entry)
    case _ => None
  }

  /** Floor hours with truncated minutes recombine to the span when it is
      not negative, and to an hour less when it is negative and not a whole
      number of hours. */
  lemma FloorTruncParts(total: int)
    ensures total >= 0 ==> (total / 60) * 60 + JsRemainder(total, 60) == total && 0 <= JsRemainder(total, 60) < 60
    ensures total < 0 && total % 60 != 0 ==> (total / 60) * 60 + JsRemainder(total, 60) == total - 60
    ensures total < 0 && total % 60 == 0 ==> (total / 60) * 60 + JsRemainder(total, 60) == total
  {
    if total < 0 {
      var p := -total;
      var q, r := p / 60, p % 60;
      assert p == 60 * q + r && 0 <= r < 60;
      if r == 0 {
        assert total == 60 * (-q) + 0;
        assert total / 60 == -q && total % 60 == 0;
      } else {
        assert total == 60 * (-q - 1) + (60 - r);
        assert total / 60 == -q - 1 && total % 60 == 60 - r;
      }
    }
  }

  /** `updateTodayHours` on one record as written: whole hours by
      `Math.floor`, minutes by JavaScript's truncating `%`. The parts add up
      to the span when it is not negative, and fall an hour short of it
      when it is negative and not a whole number of hours. */
  function ShownHours(entryTime: string, exitTime: string): (h: HoursShown)
    ensures !JsTruthy(entryTime) || !JsTruthy(exitTime) ==> h == NoHours
    ensures h.Shown? <==> JsTruthy(entryTime) && JsTruthy(exitTime) && SpanMinutes(entryTime, exitTime).Some?
    ensures h.Shown? ==>
      var total := SpanMinutes(entryTime, exitTime).value;
      && (total >= 0 ==> h.hours * 60 + h.minutes == total && 0 <= h.minutes < 60)
      && (total < 0 && total % 60 != 0 ==> h.hours * 60 + h.minutes == total - 60)
      && (total < 0 && total % 60 == 0 ==> h.hours * 60 + h.minutes == total)
    ensures h.Shown? ==>
      var total := SpanMinutes(entryTime, exitTime).value;
      && h.hours * 60 <= total < h.hours * 60 + 60
      && (total < 0 ==> -60 < h.minutes <= 0)
  {
    if !JsTruthy(entryTime) || !JsTruthy(exitTime) then NoHours
    else
      match SpanMinutes(entryTime, exitTime)
      case None => Unreadable
      case Some(total) =>
        FloorTruncParts(total);
        Shown(total / 60, JsRemainder(total, 60))
  }

  /** `updateTodayHours` as written: the first of today's records, shown
      with floor hours and truncated minutes, or nothing. */
  function TodayHours(rs: seq<Record>, userId: string, today: string): (h: HoursShown)
    ensures |MatchIndices(rs, userId, today)| == 0 ==> h == NoHours
    ensures |MatchIndices(rs, userId, today)| > 0 ==>
      var r := rs[MatchIndices(rs, userId, today)[0]];
      h == ShownHours(r.entryTime, r.exitTime)
  {
    match FirstToday(rs, userId, today)
    case None => NoHours
    case Some(k) => ShownHours(rs[k].entryTime, rs[k].exitTime)
  }

  /** A record that ends before it starts (a night shift) is shown with
      parts that do not add up: 22:00 to 06:30 is 930 minutes back, yet
      the widget shows -16 h and -30 min, 990 minutes back. */
  lemma TodayHoursNightShift()
    ensures ShownHours("22:00", "06:30") == Shown(-16, -30)
  {
    assert SplitMinutes("22:00") == Some(1320);
    assert SplitMinutes("06:30") == Some(390);
    assert JsRemainder(-930, 60) == -30;
  }

  /** The same widget with floor minutes to match floor hours: the parts
      always add up to the signed span and the minutes stay in 0..59. */
  function ShownHoursCorrected(entryTime: string, exitTime: string): (h: HoursShown)
    ensures !JsTruthy(entryTime) || !JsTruthy(exitTime) ==> h == NoHours
    ensures h.Shown? <==> JsTruthy(entryTime) && JsTruthy(exitTime) && SpanMinutes(entryTime, exitTime).Some?
    ensures h.Shown? ==>
      var total := SpanMinutes(entryTime, exitTime).value;
      h.hours * 60 + h.minutes == total && 0 <= h.minutes < 60
  {
    if !JsTruthy(entryTime) || !JsTruthy(exitTime) then NoHours
    else
      match SpanMinutes(entryTime, exitTime)
      case None => Unreadable
      case Some(total) => Shown(total / 60, total % 60)
  }

  /** The two agree whenever the record does not end before it starts. */
  lemma ShownHoursAgreeForward(entryTime: string, exitTime: string)
    requires SpanMinutes(entryTime, exitTime).Some? ==> SpanMinutes(entryTime, exitTime).value >= 0
    ensures ShownHours(entryTime, exitTime) == ShownHoursCorrected(entryTime, exitTime)
  {
  }

  /** The widget with the corrected parts. */
  function TodayHoursCorrected(rs: seq<Record>, userId: string, today: string): (h: HoursShown)
    ensures |MatchIndices(rs, userId, today)| == 0 ==> h == NoHours
    ensures |MatchIndices(rs, userId, today)| > 0 ==>
      var r := rs[MatchIndices(rs, userId, today)[0]];
      h == ShownHoursCorrected(r.entryTime, r.exitTime)
  {
    match FirstToday(rs, userId, today)
    case None => NoHours
    case Some(k) => ShownHoursCorrected(rs[k].entryTime, rs[k].exitTime)
  }

  /** The widget as written and the corrected one differ exactly when
      today's first record ends before it starts by a span that is not a
      whole number of hours. */
  lemma TodayHoursDifferIff(rs: seq<Record>, userId: string, today: string)
    ensures TodayHours(rs, userId, today) != TodayHoursCorrected(rs, userId, today) <==>
      && |MatchIndices(rs, userId, today)| > 0
      && var r := rs[MatchIndices(rs, userId, today)[0]];
         && JsTruthy(r.entryTime) && JsTruthy(r.exitTime)
         && SpanMinutes(r.entryTime, r.exitTime).Some?
         && SpanMinutes(r.entryTime, r.exitTime).value < 0
         && SpanMinutes(r.entryTime, r.exitTime).value % 60 != 0
  {
    if |MatchIndices(rs, userId, today)| > 0 {
      var r := rs[MatchIndices(rs, userId, today)[0]];
      var span := SpanMinutes(r.entryTime, r.exitTime);
      if span.Some? && span.value < 0 {
        ShownHoursDifferIff(r.entryTime, r.exitTime);
      } else {
        ShownHoursAgreeForward(r.entryTime, r.exitTime);
      }
    }
  }

  /** On a negative span the two renderings differ exactly when the span is
      not a whole number of hours. */
  lemma ShownHoursDifferIff(entryTime: string, exitTime: string)
    requires SpanMinutes(entryTime, exitTime).Some? && SpanMinutes(entryTime, exitTime).value < 0
    ensures ShownHours(entryTime, exitTime) != ShownHoursCorrected(entryTime, exitTime) <==>
      JsTruthy(entryTime) && JsTruthy(exitTime) && SpanMinutes(entryTime, exitTime).value % 60 != 0
  {
    var total := SpanMinutes(entryTime, exitTime).value;
    if JsTruthy(entryTime) && JsTruthy(exitTime) {
      FloorTruncParts(total);
    }
  }

  // ----- the employee table's sort -----

  datatype Column = Name | Dni | LastFichaje

  datatype SortState = SortState(column: Option<Column>, ascending: bool)

  /** A click on a column header: the same column flips the direction, a
      new column sorts ascending. */
  function ClickColumn(st: SortState, col: Column): (next: SortState)
    ensures next.column == Some(col)
    ensures st.column == Some(col) ==> next.ascending == !st.ascending
    ensures st.column != Some(col) ==> next.ascending
  {
    if st.column == Some(col) then st.(ascending := !st.ascending) else SortState(Some(col), true)
  }

  /** Two clicks on the same column leave the order as it was. */
  lemma ClickTwiceRestores(st: SortState, col: Column)
    requires st.column == Some(col)
    ensures ClickColumn(ClickColumn(st, col), col) == st
  {
  }

  /** The comparator: string order, negated when descending. */
  function Compare(a: string, b: string, ascending: bool): (c: int)
    ensures c == 0 <==> a == b
    ensures ascending ==> (c < 0 <==> LexLess(a, b))
    ensures !ascending ==> (c < 0 <==> LexLess(b, a))
  {
    LexLessTrichotomy(a, b);
    LexLessIrreflexive(a);
    LexLessAsymmetric(a, b);
    var dir := if ascending then 1 else -1;
    if LexLess(a, b) then -dir else if LexLess(b, a) then dir else 0
  }

  /** The comparator is antisymmetric, and descending is ascending reversed. */
  lemma CompareAntisymmetric(a: string, b: string, ascending: bool)
    ensures Compare(a, b, ascending) == -Compare(b, a, ascending)
    ensures Compare(a, b, !ascending) == -Compare(a, b, ascending)
  {
    LexLessAsymmetric(a, b);
  }

  /** The latest date among the worker's records, "" when there is none:
      the "last clock-in" key of the table. */
  function LastFichajeDate(rs: seq<Record>, userId: string): (d: string)
    ensures (forall i :: 0 <= i < |rs| ==> rs[i].userId != userId) ==> d == ""
    ensures d != "" ==> exists i :: 0 <= i < |rs| && rs[i].userId == userId && rs[i].date == d
    ensures forall i :: 0 <= i < |rs| && rs[i].userId == userId ==> !LexLess(d, rs[i].date)
  {
    if |rs| == 0 then ""
    else
      var n := |rs|;
      var prev := LastFichajeDate(rs[..n - 1], userId);
      var last := rs[n - 1];
      assert forall i :: 0 <= i < n - 1 ==> rs[..n - 1][i] == rs[i];
      if last.userId != userId then prev
      else if (forall i :: 0 <= i < n - 1 ==> rs[i].userId != userId) || LexLess(prev, last.date) then
        LatestDateStep(rs, prev);
        last.date
      else
        LexLessTrichotomy(prev, last.date);
        prev
  }

  lemma LatestDateStep(rs: seq<Record>, prev: string)
    requires |rs| > 0
    requires forall i :: 0 <= i < |rs| - 1 && rs[i].userId == rs[|rs| - 1].userId ==> !LexLess(prev, rs[i].date)
    requires (forall i :: 0 <= i < |rs| - 1 ==> rs[i].userId != rs[|rs| - 1].userId) || LexLess(prev, rs[|rs| - 1].date)
    ensures forall i :: 0 <= i < |rs| && rs[i].userId == rs[|rs| - 1].userId ==> !LexLess(rs[|rs| - 1].date, rs[i].date)
  {
    var d := rs[|rs| - 1].date;
    var u := rs[|rs| - 1].userId;
    forall i | 0 <= i < |rs| && rs[i].userId == u
      ensures !LexLess(d, rs[i].date)
    {
      LexLessIrreflexive(d);
      if i < |rs| - 1 && LexLess(d, rs[i].date) {
        LexLessTransitive(prev, d, rs[i].date);
      }
    }
  }

  /** The key a column sorts a user by (without the lower-casing of names). */
  function SortKey(u: User, col: Column, rs: seq<Record>): (k: string)
    ensures col == Name ==> k == u.nombre + " " + u.apellidos
    ensures col == Dni ==> k == u.dni
    ensures col == LastFichaje && (forall i :: 0 <= i < |rs| ==> rs[i].userId != u.id) ==> k == ""
    ensures col == LastFichaje ==> forall i :: 0 <= i < |rs| && rs[i].userId == u.id ==> !LexLess(k, rs[i].date)
    ensures col == LastFichaje && k != "" ==> exists i :: 0 <= i < |rs| && rs[i].userId == u.id && rs[i].date == k
  {
    match col
    case Name => u.nombre + " " + u.apellidos
    case Dni => u.dni
    case LastFichaje => LastFichajeDate(rs, u.id)
  }

  /** A user with a record sorts after a user without any in the ascending
      "last clock-in" order, and before it once the direction flips. */
  lemma UsersWithoutRecordsSortFirst(a: User, b: User, rs: seq<Record>, i: nat)
    requires forall j :: 0 <= j < |rs| ==> rs[j].userId != a.id
    requires i < |rs| && rs[i].userId == b.id && rs[i].date != ""
    ensures Compare(SortKey(a, LastFichaje, rs), SortKey(b, LastFichaje, rs), true) < 0
    ensures Compare(SortKey(a, LastFichaje, rs), SortKey(b, LastFichaje, rs), false) > 0
  {
    var kb := LastFichajeDate(rs, b.id);
    assert !LexLess(kb, rs[i].date);
    assert kb != "";
  }
}

=== FILE: clock.dfy ===
/** Wall-clock strings: the `YYYY-MM-DD` and `HH:MM` shapes the API's
    regular expressions accept, how PHP's `strtotime` and the browser's
    `Date` read a time of day, and the decimal rendering the report uses
    to build a date key. Times of day are seconds since midnight. */
module Clock {
  import opened Common

  predicate IsDigit(c: char) {
    '0' <= c <= '9'
  }

  function DigitValue(c: char): (d: nat)
    requires IsDigit(c)
    ensures d < 10
  {
    c as int - '0' as int
  }

  function DigitChar(d: nat): (c: char)
    requires d < 10
    ensures IsDigit(c) && DigitValue(c) == d
  {
    ('0' as int + d) as char
  }

  /** The exact shape `\d{4}-\d{2}-\d{2}`. */
  predicate IsDateShape(s: string) {
    && |s| == 10
    && IsDigit(s[0]) && IsDigit(s[1]) && IsDigit(s[2]) && IsDigit(s[3])
    && s[4] == '-'
    && IsDigit(s[5]) && IsDigit(s[6])
    && s[7] == '-'
    && IsDigit(s[8]) && IsDigit(s[9])
  }

  /** The exact shape `\d{2}:\d{2}`. */
  predicate IsClockShape(s: string) {
    && |s| == 5
    && IsDigit(s[0]) && IsDigit(s[1])
    && s[2] == ':'
    && IsDigit(s[3]) && IsDigit(s[4])
  }

  /** `s` without one trailing newline, if it has one. */
  function StripFinalNewline(s: string): string {
    if |s| > 0 && s[|s| - 1] == '\n' then s[..|s| - 1] else s
  }

  /** `preg_match('/^\d{4}-\d{2}-\d{2}$/', s)`: PCRE's `$` without the D
      modifier also matches just before a final newline. */
  predicate MatchesDatePattern(s: string) {
    IsDateShape(s) || (|s| > 0 && s[|s| - 1] == '\n' && IsDateShape(s[..|s| - 1]))
  }

  /** `preg_match('/^\d{2}:\d{2}$/', s)`, with the same final-newline rule. */
  predicate MatchesClockPattern(s: string) {
    IsClockShape(s) || (|s| > 0 && s[|s| - 1] == '\n' && IsClockShape(s[..|s| - 1]))
  }

  function ClockHours(t: string): nat
    requires IsClockShape(t)
  {
    10 * DigitValue(t[0]) + DigitValue(t[1])
  }

  function ClockMinutes(t: string): nat
    requires IsClockShape(t)
  {
    10 * DigitValue(t[3]) + DigitValue(t[4])
  }

  /** A time of day both PHP and the browser can read: `HH:MM` with the
      hour below 24 and the minute below 60. */
  predicate IsValidClock(t: string) {
    IsClockShape(t) && ClockHours(t) < 24 && ClockMinutes(t) < 60
  }

  /** Seconds since midnight of a valid time of day. */
  function SecondsOfDay(t: string): (n: nat)
    requires IsValidClock(t)
    ensures n < 86400 && n % 60 == 0
  {
    ClockHours(t) * 3600 + ClockMinutes(t) * 60
  }

  /** The two-digit rendering `padStart(2, '0')` gives a number below 100. */
  function TwoDigits(n: nat): (s: string)
    requires n < 100
    ensures |s| == 2 && IsDigit(s[0]) && IsDigit(s[1])
    ensures 10 * DigitValue(s[0]) + DigitValue(s[1]) == n
  {
    [DigitChar(n / 10), DigitChar(n % 10)]
  }

  /** The `HH:MM` string of a minute of the day. */
  function ClockString(minuteOfDay: nat): (t: string)
    requires minuteOfDay < 1440
    ensures IsValidClock(t)
  {
    TwoDigits(minuteOfDay / 60) + ":" + TwoDigits(minuteOfDay % 60)
  }

  /** Two digits read as a number and written back give the same digits. */
  lemma TwoDigitsOfDigits(a: char, b: char)
    requires IsDigit(a) && IsDigit(b)
    ensures TwoDigits(10 * DigitValue(a) + DigitValue(b)) == [a, b]
  {
    var n := 10 * DigitValue(a) + DigitValue(b);
    assert n / 10 == DigitValue(a) && n % 10 == DigitValue(b);
  }

  /** Hours and minutes folded into a minute of the day come back out of
      its quotient and remainder by 60. */
  lemma MinuteOfDayParts(h: nat, m: nat)
    requires h < 24 && m < 60
    ensures (h * 60 + m) < 1440
    ensures (h * 60 + m) / 60 == h && (h * 60 + m) % 60 == m
  {
  }

  /** Reading a time of day and writing it back are inverse. */
  lemma ClockRoundTrip(t: string)
    requires IsValidClock(t)
    ensures SecondsOfDay(t) / 60 < 1440
    ensures ClockString(SecondsOfDay(t) / 60) == t
  {
    var h := ClockHours(t);
    var mi := ClockMinutes(t);
    assert SecondsOfDay(t) / 60 == h * 60 + mi;
    MinuteOfDayParts(h, mi);
    TwoDigitsOfDigits(t[0], t[1]);
    TwoDigitsOfDigits(t[3], t[4]);
    assert t == [t[0], t[1]] + ":" + [t[3], t[4]];
  }

  lemma ClockStringRoundTrip(minuteOfDay: nat)
    requires minuteOfDay < 1440
    ensures SecondsOfDay(ClockString(minuteOfDay)) == 60 * minuteOfDay
  {
  }

  /** The timestamp PHP's `strtotime` gives a time of day, on the day whose
      midnight is `midnight`. A string it cannot read gives `false`, which
      PHP's arithmetic turns into 0; the model returns that 0 directly. A
      final newline (which the API's patterns let through) is skipped. */
  function StrToTime(t: string, midnight: int): int {
    var core := StripFinalNewline(t);
    if IsValidClock(core) then midnight + SecondsOfDay(core) else 0
  }

  /** Between two readable times the difference of their timestamps is the
      difference of their seconds of day, whatever the day. */
  lemma StrToTimeDifference(t1: string, t2: string, midnight: int)
    requires IsValidClock(t1) && IsValidClock(t2)
    ensures StrToTime(t2, midnight) - StrToTime(t1, midnight) == SecondsOfDay(t2) - SecondsOfDay(t1)
  {
  }

  /** An unreadable time sits a whole day's timestamp away from a readable
      one, so it is never within an hour of it. */
  lemma StrToTimeFailureIsFar(bad: string, good: string, midnight: int)
    requires !IsValidClock(StripFinalNewline(bad)) && IsValidClock(good)
    requires midnight >= 86400
    ensures StrToTime(good, midnight) - StrToTime(bad, midnight) >= 3600
  {
  }

  /** The seconds of day the browser's `new Date('2000-01-01T' + t)` gives,
      or None for an Invalid Date. */
  function JsClockSeconds(t: string): (r: Option<nat>)
    ensures r.Some? <==> IsValidClock(t)
    ensures r.Some? ==> r.value < 86400
  {
    if IsValidClock(t) then Some(SecondsOfDay(t)) else None
  }

  /** Minutes of day read with `t.split(':').map(Number)`. On the `HH:MM`
      shape (with the one final newline the server's pattern lets through)
      `Number` checks no range, so "99:99" reads as 99 * 60 + 99. Every
      other string is read here as unreadable (None), although `Number`
      would read some of them, such as "8:00" or ":5", as numbers; the
      server's pattern rejects all of those, so no stored record has one. */
  function SplitMinutes(t: string): (r: Option<int>)
    ensures IsClockShape(t) ==> r == Some(ClockHours(t) * 60 + ClockMinutes(t))
    ensures !MatchesClockPattern(t) ==> r.None?
  {
    var core := StripFinalNewline(t);
    if IsClockShape(core) then Some(ClockHours(core) * 60 + ClockMinutes(core)) else None
  }

  /** JavaScript's `n.toString()` for a natural number. */
  function DecimalString(n: nat): (s: string)
    ensures |s| >= 1
    ensures forall i :: 0 <= i < |s| ==> IsDigit(s[i])
    ensures n < 10 <==> |s| == 1
    decreases n
  {
    if n < 10 then [DigitChar(n)] else DecimalString(n / 10) + [DigitChar(n % 10)]
  }

  /** The number a string of decimal digits denotes. */
  function DecimalValue(s: string): nat
    requires forall i :: 0 <= i < |s| ==> IsDigit(s[i])
  {
    if |s| == 0 then 0 else 10 * DecimalValue(s[..|s| - 1]) + DigitValue(s[|s| - 1])
  }

  lemma {:induction false} DecimalRoundTrip(n: nat)
    ensures DecimalValue(DecimalString(n)) == n
    decreases n
  {
    var s := DecimalString(n);
    if n >= 10 {
      DecimalRoundTrip(n / 10);
      assert s[..|s| - 1] == DecimalString(n / 10);
    }
  }

  /** `s.padStart(2, '0')`. */
  function PadStart2(s: string): (r: string)
    ensures |s| >= 2 ==> r == s
    ensures |s| < 2 ==> |r| == 2 && r[2 - |s|..] == s
  {
    if |s| >= 2 then s else if |s| == 1 then "0" + s else "00"
  }

  /** The date key the report grid builds for one day:
      `${year}-${pad2(month0 + 1)}-${pad2(day)}` with a zero-based month. */
  function DateKey(year: nat, month0: nat, day: nat): string {
    DecimalString(year) + "-" + PadStart2(DecimalString(month0 + 1)) + "-" + PadStart2(DecimalString(day))
  }

  function DateYear(s: string): nat
    requires IsDateShape(s)
  {
    DecimalValue(s[..4])
  }

  function DateMonth(s: string): nat
    requires IsDateShape(s)
  {
    DecimalValue(s[5..7])
  }

  function DateDay(s: string): nat
    requires IsDateShape(s)
  {
    DecimalValue(s[8..])
  }

  lemma TwoDigitKey(n: nat)
    requires 1 <= n < 100
    ensures |PadStart2(DecimalString(n))| == 2
    ensures forall i :: 0 <= i < 2 ==> IsDigit(PadStart2(DecimalString(n))[i])
    ensures DecimalValue(PadStart2(DecimalString(n))) == n
  {
    var s := DecimalString(n);
    DecimalRoundTrip(n);
    var p := PadStart2(s);
    if |s| == 1 {
      assert p[..1] == "0";
      assert DecimalValue(p[..1]) == 0 by {
        assert p[..1][..0] == [];
      }
      assert p[1] == s[0];
      assert s[..0] == [];
    }
  }

  /** For a four-digit year, a month and a day of the month the date key is
      a `YYYY-MM-DD` string that reads back as the same year, month and day,
      so distinct days of a month get distinct keys. */
  lemma DateKeyRoundTrip(year: nat, month0: nat, day: nat)
    requires 1000 <= year <= 9999 && month0 < 12 && 1 <= day <= 31
    ensures IsDateShape(DateKey(year, month0, day))
    ensures DateYear(DateKey(year, month0, day)) == year
    ensures DateMonth(DateKey(year, month0, day)) == month0 + 1
    ensures DateDay(DateKey(year, month0, day)) == day
  {
    var y := DecimalString(year);
    DecimalRoundTrip(year);
    assert |y| == 4 by {
      DecimalLength(year);
    }
    TwoDigitKey(month0 + 1);
    TwoDigitKey(day);
    var m := PadStart2(DecimalString(month0 + 1));
    var d := PadStart2(DecimalString(day));
    var k := DateKey(year, month0, day);
    assert k == y + "-" + m + "-" + d;
    assert k[..4] == y;
    assert k[5..7] == m;
    assert k[8..] == d;
  }

  lemma DecimalLength(n: nat)
    requires 1000 <= n <= 9999
    ensures |DecimalString(n)| == 4
  {
    assert |DecimalString(n / 1000)| == 1;
    assert (n / 10) / 10 == n / 100 && (n / 100) / 10 == n / 1000;
    assert |DecimalString(n / 100)| == |DecimalString(n / 1000)| + 1;
    assert |DecimalString(n / 10)| == |DecimalString(n / 100)| + 1;
    assert |DecimalString(n)| == |DecimalString(n / 10)| + 1;
  }
}

=== FILE: common.dfy ===
/** Shared vocabulary of the time-clock model: optional values, handler
    outcomes with the error each endpoint answers, the authenticated actor,
    and the few PHP and JavaScript string primitives the handlers lean on. */
module Common {

  datatype Option<+T> = None | Some(value: T)

  /** What a request handler ends with: a value, or the error response. */
  datatype Result<+T> = Ok(value: T) | Err(error: Error)

  /** Every error response the modelled handlers can send. */
  datatype Error =
    | NotAuthenticated        // no user in the session
    | AccessDenied            // role check failed
    | InvalidDateFormat
    | InvalidEntryFormat
    | InvalidExitFormat
    | IncompleteData
    | CannotSaveForOthers
    | PasswordTooShort
    | UserNotFound
    | UserIdRequired
    | CannotDeleteSelf
    | TooManyAttempts
    | CredentialsRequired
    | InvalidEmail
    | UnknownEmail            // login with an email nobody has
    | WrongPassword
    | AllFieldsRequired
    | EmailTaken
    | DniTaken
    | AdminAlreadyExists
    | NameAndCifRequired
    | CompanyIdRequired
    | CannotDeleteDefault
    | CompanyNotFound
  {
    /** The HTTP status the handler sends with this error. */
    function Status(): int {
      match this
      case NotAuthenticated => 401
      case AccessDenied => 403
      case CannotSaveForOthers => 403
      case UserNotFound => 404
      case CompanyNotFound => 404
      case TooManyAttempts => 429
      case UnknownEmail => 401
      case WrongPassword => 401
      case _ => 400
    }
  }

  /** The user stored in the session: only its id and role matter here. */
  datatype Actor = Actor(id: string, role: string)

  predicate IsAdmin(a: Actor) {
    a.role == "admin"
  }

  /** PHP's `empty()` on a string: the empty string and "0". String
      truthiness in PHP is exactly its negation. */
  predicate PhpEmpty(s: string) {
    s == "" || s == "0"
  }

  /** JavaScript truthiness of a string: only "" is falsy. */
  predicate JsTruthy(s: string) {
    s != ""
  }

  /** JavaScript truthiness of an optional string (`null` is falsy). */
  predicate JsPresent(o: Option<string>) {
    o.Some? && JsTruthy(o.value)
  }

  /** The characters PHP's `trim` strips by default. */
  predicate IsTrimmable(c: char) {
    c == ' ' || c == '\t' || c == '\n' || c == '\r' || c == 0 as char || c == 11 as char
  }

  function TrimLeft(s: string): (r: string)
    ensures |r| <= |s| && r == s[|s| - |r|..]
    ensures |r| > 0 ==> !IsTrimmable(r[0])
    ensures forall i :: 0 <= i < |s| - |r| ==> IsTrimmable(s[i])
  {
    if |s| > 0 && IsTrimmable(s[0]) then TrimLeft(s[1..]) else s
  }

  function TrimRight(s: string): (r: string)
    ensures |r| <= |s| && r == s[..|r|]
    ensures |r| > 0 ==> !IsTrimmable(r[|r| - 1])
    ensures forall i :: |r| <= i < |s| ==> IsTrimmable(s[i])
  {
    if |s| > 0 && IsTrimmable(s[|s| - 1]) then TrimRight(s[..|s| - 1]) else s
  }

  /** How many characters PHP's `trim` removes from the front of `s`. */
  function TrimmedFront(s: string): (k: nat)
    ensures k <= |s|
  {
    |s| - |TrimLeft(s)|
  }

  /** PHP's `trim`: the slice of `s` that neither starts nor ends with a
      trimmable character, everything cut away on either side being
      trimmable. */
  function Trim(s: string): (r: string)
    ensures TrimmedFront(s) + |r| <= |s|
    ensures r == s[TrimmedFront(s)..TrimmedFront(s) + |r|]
    ensures |r| > 0 ==> !IsTrimmable(r[0]) && !IsTrimmable(r[|r| - 1])
    ensures forall i :: 0 <= i < TrimmedFront(s) ==> IsTrimmable(s[i])
    ensures forall i :: TrimmedFront(s) + |r| <= i < |s| ==> IsTrimmable(s[i])
  {
    var l := TrimLeft(s);
    var r := TrimRight(l);
    TrimSlice(s, l, r);
    r
  }

  lemma TrimSlice(s: string, l: string, r: string)
    requires |l| <= |s| && l == s[|s| - |l|..]
    requires |r| <= |l| && r == l[..|r|]
    requires forall i :: |r| <= i < |l| ==> IsTrimmable(l[i])
    ensures |s| - |l| + |r| <= |s|
    ensures r == s[|s| - |l|..|s| - |l| + |r|]
    ensures forall i :: |s| - |l| + |r| <= i < |s| ==> IsTrimmable(s[i])
  {
    var k := |s| - |l|;
    forall i | k + |r| <= i < |s|
      ensures IsTrimmable(s[i])
    {
      assert s[i] == l[i - k];
    }
  }

  /** Trimming twice is trimming once. */
  lemma TrimIdempotent(s: string)
    ensures Trim(Trim(s)) == Trim(s)
  {
    var t := Trim(s);
    if |t| > 0 {
      assert TrimLeft(t) == t;
      assert TrimRight(t) == t;
    }
  }

  /** JavaScript's `<` on strings: lexicographic order on characters, a
      proper prefix coming first. */
  predicate LexLess(a: string, b: string)
    decreases |a|
  {
    if |a| == 0 then |b| > 0
    else if |b| == 0 then false
    else if a[0] != b[0] then a[0] < b[0]
    else LexLess(a[1..], b[1..])
  }

  lemma {:induction false} LexLessIrreflexive(a: string)
    ensures !LexLess(a, a)
    decreases |a|
  {
    if |a| > 0 {
      LexLessIrreflexive(a[1..]);
    }
  }

  lemma {:induction false} LexLessTransitive(a: string, b: string, c: string)
    requires LexLess(a, b) && LexLess(b, c)
    ensures LexLess(a, c)
    decreases |a|
  {
    if |a| > 0 && |b| > 0 && |c| > 0 && a[0] == b[0] && b[0] == c[0] {
      LexLessTransitive(a[1..], b[1..], c[1..]);
    }
  }

  /** At most one of two strings is below the other. */
  lemma LexLessAsymmetric(a: string, b: string)
    ensures !(LexLess(a, b) && LexLess(b, a))
  {
    if LexLess(a, b) && LexLess(b, a) {
      LexLessTransitive(a, b, a);
      LexLessIrreflexive(a);
    }
  }

  lemma {:induction false} LexLessTrichotomy(a: string, b: string)
    ensures LexLess(a, b) || a == b || LexLess(b, a)
    decreases |a|
  {
    if |a| > 0 && |b| > 0 && a[0] == b[0] {
      LexLessTrichotomy(a[1..], b[1..]);
      if a[1..] == b[1..] {
        assert a == [a[0]] + a[1..] && b == [b[0]] + b[1..];
      }
    }
  }

  /** The number of bytes UTF-8 uses for one character. */
  function Utf8Width(c: char): nat {
    if c as int < 0x80 then 1
    else if c as int < 0x800 then 2
    else if c as int < 0x10000 then 3
    else 4
  }

  /** PHP's `strlen`: the UTF-8 byte length of a string. */
  function Utf8Length(s: string): (n: nat)
    ensures n >= |s|
    ensures n <= 4 * |s|
  {
    if |s| == 0 then 0 else Utf8Width(s[0]) + Utf8Length(s[1..])
  }
}

=== FILE: companies.dfy ===
/** The company profiles an administrator keeps for the monthly report:
    save (create or update), delete, and the one-off creation of the
    default profile. Every handler is for administrators only. */
module Companies {
  import opened Common

  /** A stored company profile. `isDefault` is present only on the profile
      the initialiser creates. */
  datatype Company = Company(
    id: string,
    name: string,
    cif: string,
    address: string,
    ccc: string,
    sealImage: string,
    isDefault: Option<bool>,
    createdAt: string)

  /** The id of the profile that can never be deleted. */
  const DefaultId: string := "default"

  /** The profile the initialiser inserts. */
  function DefaultCompany(now: string): (c: Company)
    ensures c.id == DefaultId && c.isDefault == Some(true) && c.createdAt == now
    ensures c.name == "ALBALUZ DESARROLLOS URBANOS, S.A." && c.cif == "A98543432"
    ensures c.address == "ALBALUZ DESARROLLOS URBANOS S.A" && c.ccc == "02/1089856/19" && c.sealImage == ""
  {
    Company(DefaultId, "ALBALUZ DESARROLLOS URBANOS, S.A.", "A98543432", "ALBALUZ DESARROLLOS URBANOS S.A",
            "02/1089856/19", "", Some(true), now)
  }

  predicate HasCompanyId(cs: seq<Company>, id: string) {
    exists i :: 0 <= i < |cs| && cs[i].id == id
  }

  /** Some profile carries `isDefault === true`. */
  predicate HasDefault(cs: seq<Company>) {
    exists i :: 0 <= i < |cs| && cs[i].isDefault == Some(true)
  }

  /** The position of the first profile with this id. */
  function FirstCompany(cs: seq<Company>, id: string): (k: Option<nat>)
    ensures k.None? <==> !HasCompanyId(cs, id)
    ensures k.Some? ==> k.value < |cs| && cs[k.value].id == id
    ensures k.Some? ==> forall j :: 0 <= j < k.value ==> cs[j].id != id
  {
    if |cs| == 0 then None
    else if cs[0].id == id then Some(0)
    else
      var rest := FirstCompany(cs[1..], id);
      assert forall j :: 1 <= j < |cs| ==> cs[j] == cs[1..][j - 1];
      if rest.Some? then Some(rest.value + 1) else None
  }

  /** The fields of a save request. `id` is None when the request has none,
      and then a fresh id is used; `sealImage` is "" when absent. */
  datatype CompanyInput = CompanyInput(
    id: Option<string>,
    name: string,
    cif: string,
    address: string,
    ccc: string,
    sealImage: string)

  /** The existing profile after a save: the text fields replaced by the
      trimmed input, the seal only when the request brings one. */
  function Overwrite(c: Company, input: CompanyInput): (d: Company)
    ensures d.id == c.id && d.isDefault == c.isDefault && d.createdAt == c.createdAt
    ensures d.name == Trim(input.name) && d.cif == Trim(input.cif)
    ensures d.address == Trim(input.address) && d.ccc == Trim(input.ccc)
    ensures d.sealImage == (if PhpEmpty(input.sealImage) then c.sealImage else input.sealImage)
  {
    c.(name := Trim(input.name), cif := Trim(input.cif), address := Trim(input.address), ccc := Trim(input.ccc),
       sealImage := if PhpEmpty(input.sealImage) then c.sealImage else input.sealImage)
  }

  /** The profile a save appends: the trimmed text fields, the seal as sent. */
  function NewCompany(id: string, input: CompanyInput, now: string): (c: Company)
    ensures c.id == id && c.isDefault.None? && c.createdAt == now && c.sealImage == input.sealImage
    ensures c.name == Trim(input.name) && c.cif == Trim(input.cif)
    ensures c.address == Trim(input.address) && c.ccc == Trim(input.ccc)
  {
    Company(id, Trim(input.name), Trim(input.cif), Trim(input.address), Trim(input.ccc), input.sealImage, None, now)
  }

  /** The write of a valid save: the first profile with the id is updated
      in place; when there is none a new one is appended. */
  function StoreCompany(cs: seq<Company>, id: string, input: CompanyInput, now: string): (out: seq<Company>)
    ensures HasCompanyId(out, id)
    ensures HasCompanyId(cs, id) ==>
      var k := FirstCompany(cs, id).value;
      && |out| == |cs|
      && out[k] == Overwrite(cs[k], input)
      && forall j :: 0 <= j < |cs| && j != k ==> out[j] == cs[j]
    ensures !HasCompanyId(cs, id) ==> out == cs + [NewCompany(id, input, now)]
  {
    match FirstCompany(cs, id)
    case Some(k) =>
      var out := cs[k := Overwrite(cs[k], input)];
      assert out[k].id == id;
      out
    case None =>
      var out := cs + [NewCompany(id, input, now)];
      assert out[|cs|].id == id;
      out
  }

  /** `handleSave`: administrators only, name and CIF required after
      trimming, then the write. A request without an id gets `freshId`. */
  function SaveCompany(session: Option<Actor>, input: CompanyInput, cs: seq<Company>, freshId: string, now: string)
    : (r: Result<seq<Company>>)
    ensures (session.None? || !IsAdmin(session.value)) ==> r == Err(AccessDenied)
    ensures session.Some? && IsAdmin(session.value) && (PhpEmpty(Trim(input.name)) || PhpEmpty(Trim(input.cif))) ==>
      r == Err(NameAndCifRequired)
    ensures r.Ok? <==>
      session.Some? && IsAdmin(session.value) && !PhpEmpty(Trim(input.name)) && !PhpEmpty(Trim(input.cif))
    ensures r.Ok? ==>
      var id := if input.id.Some? then input.id.value else freshId;
      && HasCompanyId(r.value, id)
      && (HasCompanyId(cs, id) ==>
            var k := FirstCompany(cs, id).value;
            && |r.value| == |cs|
            && r.value[k] == Overwrite(cs[k], input)
            && forall j :: 0 <= j < |cs| && j != k ==> r.value[j] == cs[j])
      && (!HasCompanyId(cs, id) ==> r.value == cs + [NewCompany(id, input, now)])
  {
    if session.None? || !IsAdmin(session.value) then Err(AccessDenied)
    else if PhpEmpty(Trim(input.name)) || PhpEmpty(Trim(input.cif)) then Err(NameAndCifRequired)
    else Ok(StoreCompany(cs, if input.id.Some? then input.id.value else freshId, input, now))
  }

  /** Saving the same profile twice leaves the list as one save left it,
      whichever branch the first save took. */
  lemma SaveCompanyIdempotent(session: Option<Actor>, input: CompanyInput, cs: seq<Company>, now: string, now2: string)
    requires input.id.Some?
    requires SaveCompany(session, input, cs, "", now).Ok?
    ensures var once := SaveCompany(session, input, cs, "", now).value;
      SaveCompany(session, input, once, "", now2) == Ok(once)
  {
    StoreCompanyIdempotent(cs, input.id.value, input, now, now2);
  }

  /** Writing the same profile twice leaves the list as one write left it. */
  lemma StoreCompanyIdempotent(cs: seq<Company>, id: string, input: CompanyInput, now: string, now2: string)
    ensures var once := StoreCompany(cs, id, input, now);
      StoreCompany(once, id, input, now2) == once
  {
    if HasCompanyId(cs, id) {
      StoreUpdateIdempotent(cs, id, input, now, now2);
    } else {
      StoreAppendIdempotent(cs, id, input, now, now2);
    }
  }

  lemma StoreUpdateIdempotent(cs: seq<Company>, id: string, input: CompanyInput, now: string, now2: string)
    requires HasCompanyId(cs, id)
    ensures var once := StoreCompany(cs, id, input, now);
      StoreCompany(once, id, input, now2) == once
  {
    var k := FirstCompany(cs, id).value;
    var c := Overwrite(cs[k], input);
    var once := cs[k := c];
    assert StoreCompany(cs, id, input, now) == once;
    OverwriteIdempotent(cs[k], input);
    FirstCompanyAfterUpdate(cs, id, k, c);
    assert once[k := Overwrite(once[k], input)] == once;
  }

  /** Replacing the first profile with an id by another with that id keeps
      it the first. */
  lemma FirstCompanyAfterUpdate(cs: seq<Company>, id: string, k: nat, c: Company)
    requires FirstCompany(cs, id) == Some(k) && c.id == id
    ensures FirstCompany(cs[k := c], id) == Some(k)
  {
    var u := cs[k := c];
    assert u[k].id == id;
    assert forall j :: 0 <= j < k ==> u[j] == cs[j];
  }

  lemma StoreAppendIdempotent(cs: seq<Company>, id: string, input: CompanyInput, now: string, now2: string)
    requires !HasCompanyId(cs, id)
    ensures var once := StoreCompany(cs, id, input, now);
      StoreCompany(once, id, input, now2) == once
  {
    var once := StoreCompany(cs, id, input, now);
    OverwriteNew(id, input, now);
    assert forall j :: 0 <= j < |cs| ==> once[j] == cs[j];
    StoreFixedPoint(once, id, input, |cs|, now2);
  }

  /** A write whose overwrite target already holds the saved values changes nothing. */
  lemma StoreFixedPoint(cs: seq<Company>, id: string, input: CompanyInput, k: nat, now: string)
    requires k < |cs| && cs[k].id == id
    requires forall j :: 0 <= j < k ==> cs[j].id != id
    requires Overwrite(cs[k], input) == cs[k]
    ensures StoreCompany(cs, id, input, now) == cs
  {
    FirstCompanyIs(cs, id, k);
    StoreAtFirst(cs, id, input, now, k);
    assert cs[k := cs[k]] == cs;
  }

  /** A write to a list that has the id updates its first profile with it. */
  lemma StoreAtFirst(cs: seq<Company>, id: string, input: CompanyInput, now: string, k: nat)
    requires FirstCompany(cs, id) == Some(k)
    ensures StoreCompany(cs, id, input, now) == cs[k := Overwrite(cs[k], input)]
  {
  }

  /** The first index carrying the id is the one the lookup returns. */
  lemma FirstCompanyIs(cs: seq<Company>, id: string, k: nat)
    requires k < |cs| && cs[k].id == id
    requires forall j :: 0 <= j < k ==> cs[j].id != id
    ensures FirstCompany(cs, id) == Some(k)
  {
    assert HasCompanyId(cs, id);
    var f := FirstCompany(cs, id);
    assert !(f.value < k);
    assert !(k < f.value);
  }

  /** A second identical overwrite changes nothing. */
  lemma OverwriteIdempotent(c: Company, input: CompanyInput)
    ensures Overwrite(Overwrite(c, input), input) == Overwrite(c, input)
  {
    TrimIdempotent(input.name);
    TrimIdempotent(input.cif);
    TrimIdempotent(input.address);
    TrimIdempotent(input.ccc);
  }

  /** Overwriting a freshly appended profile with its own input changes nothing. */
  lemma OverwriteNew(id: string, input: CompanyInput, now: string)
    ensures Overwrite(NewCompany(id, input, now), input) == NewCompany(id, input, now)
  {
    TrimIdempotent(input.name);
    TrimIdempotent(input.cif);
    TrimIdempotent(input.address);
    TrimIdempotent(input.ccc);
  }

  /** Every profile whose id is not `id`, in order (`array_filter` then
      `array_values`). */
  function RemoveCompany(cs: seq<Company>, id: string): (out: seq<Company>)
    ensures |out| <= |cs|
    ensures forall c :: c in out <==> c in cs && c.id != id
    ensures |out| == |cs| <==> !HasCompanyId(cs, id)
  {
    if |cs| == 0 then []
    else
      var prev := RemoveCompany(cs[..|cs| - 1], id);
      var last := cs[|cs| - 1];
      assert HasCompanyId(cs, id) <==> HasCompanyId(cs[..|cs| - 1], id) || last.id == id;
      if last.id != id then prev + [last] else prev
  }

  /** Removal works profile by profile: a profile stays exactly when its id
      differs, and removal over a concatenation is the concatenation of the
      removals, so the profiles that stay keep their order and number. */
  lemma {:induction false} RemoveCompanyDistributes(a: seq<Company>, b: seq<Company>, id: string)
    ensures RemoveCompany(a + b, id) == RemoveCompany(a, id) + RemoveCompany(b, id)
    decreases |b|
  {
    if |b| > 0 {
      assert (a + b)[..|a + b| - 1] == a + b[..|b| - 1];
      RemoveCompanyDistributes(a, b[..|b| - 1], id);
    } else {
      assert a + b == a;
    }
  }

  /** A single profile stays exactly when its id differs. */
  lemma RemoveCompanySingle(c: Company, id: string)
    ensures RemoveCompany([c], id) == if c.id != id then [c] else []
  {
    assert [c][..0] == [];
  }

  /** `handleDelete`: the default profile is protected, and an id no profile
      has is reported as not found without writing. */
  function DeleteCompany(session: Option<Actor>, id: string, cs: seq<Company>): (r: Result<seq<Company>>)
    ensures (session.None? || !IsAdmin(session.value)) ==> r == Err(AccessDenied)
    ensures session.Some? && IsAdmin(session.value) && PhpEmpty(id) ==> r == Err(CompanyIdRequired)
    ensures session.Some? && IsAdmin(session.value) && id == DefaultId ==> r == Err(CannotDeleteDefault)
    ensures session.Some? && IsAdmin(session.value) && !PhpEmpty(id) && id != DefaultId && !HasCompanyId(cs, id) ==>
      r == Err(CompanyNotFound)
    ensures r.Ok? <==>
      session.Some? && IsAdmin(session.value) && !PhpEmpty(id) && id != DefaultId && HasCompanyId(cs, id)
    ensures r.Ok? ==> |r.value| < |cs| && !HasCompanyId(r.value, id)
    ensures r.Ok? ==> forall c :: c in r.value <==> c in cs && c.id != id
    ensures r.Ok? ==> r.value == RemoveCompany(cs, id)
  {
    if session.None? || !IsAdmin(session.value) then Err(AccessDenied)
    else if PhpEmpty(id) then Err(CompanyIdRequired)
    else if id == DefaultId then Err(CannotDeleteDefault)
    else
      var out := RemoveCompany(cs, id);
      if |out| == |cs| then Err(CompanyNotFound) else Ok(out)
  }

  /** No delete ever removes the default profile. */
  lemma DefaultSurvivesDelete(session: Option<Actor>, id: string, cs: seq<Company>, i: nat)
    requires i < |cs| && cs[i].id == DefaultId
    requires DeleteCompany(session, id, cs).Ok?
    ensures cs[i] in DeleteCompany(session, id, cs).value
  {
  }

  /** A profile saved under a new id can be deleted again, which restores
      the list. */
  lemma SaveThenDeleteRestores(admin: Actor, input: CompanyInput, cs: seq<Company>, freshId: string, now: string)
    requires IsAdmin(admin) && !PhpEmpty(Trim(input.name)) && !PhpEmpty(Trim(input.cif))
    requires input.id == Some(freshId) && !PhpEmpty(freshId) && freshId != DefaultId && !HasCompanyId(cs, freshId)
    ensures var saved := SaveCompany(Some(admin), input, cs, freshId, now);
      saved.Ok? && DeleteCompany(Some(admin), freshId, saved.value) == Ok(cs)
  {
    var saved := SaveCompany(Some(admin), input, cs, freshId, now).value;
    var c := saved[|cs|];
    assert saved == cs + [c];
    assert saved[..|saved| - 1] == cs;
    assert RemoveCompany(cs, freshId) == cs by {
      RemoveAbsent(cs, freshId);
    }
  }

  /** Removing an id nobody has changes nothing. */
  lemma {:induction false} RemoveAbsent(cs: seq<Company>, id: string)
    requires !HasCompanyId(cs, id)
    ensures RemoveCompany(cs, id) == cs
    decreases |cs|
  {
    if |cs| > 0 {
      assert !HasCompanyId(cs[..|cs| - 1], id) by {
        assert forall j :: 0 <= j < |cs| - 1 ==> cs[..|cs| - 1][j] == cs[j];
      }
      RemoveAbsent(cs[..|cs| - 1], id);
      assert cs[..|cs| - 1] + [cs[|cs| - 1]] == cs;
    }
  }

  datatype Initialised = Initialised(companies: seq<Company>, created: bool)

  /** `init_default_company.php`: when no profile is marked default, the
      default profile is put at the front; otherwise nothing changes. */
  function InitDefaultCompany(session: Option<Actor>, cs: seq<Company>, now: string): (r: Result<Initialised>)
    ensures (session.None? || !IsAdmin(session.value)) <==> r == Err(AccessDenied)
    ensures r.Ok? ==> (r.value.created <==> !HasDefault(cs))
    ensures r.Ok? && r.value.created ==> r.value.companies == [DefaultCompany(now)] + cs
    ensures r.Ok? && !r.value.created ==> r.value.companies == cs
    ensures r.Ok? ==> HasDefault(r.value.companies)
  {
    if session.None? || !IsAdmin(session.value) then Err(AccessDenied)
    else if HasDefault(cs) then Ok(Initialised(cs, false))
    else
      assert ([DefaultCompany(now)] + cs)[0].isDefault == Some(true);
      Ok(Initialised([DefaultCompany(now)] + cs, true))
  }

  /** Running the initialiser again, at any time, creates nothing more. */
  lemma InitDefaultIdempotent(session: Option<Actor>, cs: seq<Company>, now: string, later: string)
    requires InitDefaultCompany(session, cs, now).Ok?
    ensures var once := InitDefaultCompany(session, cs, now).value.companies;
      InitDefaultCompany(session, once, later) == Ok(Initialised(once, false))
  {
  }

  /** The initialiser keeps every existing profile, in order, after the
      possibly inserted default. */
  lemma InitKeepsProfiles(session: Option<Actor>, cs: seq<Company>, now: string)
    requires InitDefaultCompany(session, cs, now).Ok?
    ensures var out := InitDefaultCompany(session, cs, now).value.companies;
      out[|out| - |cs|..] == cs
  {
  }
}

=== FILE: reconcile.dfy ===
/** The save handler of the records API: it validates a clock-in/out
    submission and reconciles it against the worker's records of that day.
    No record: a new shift 1. One record: overwrite it when the new entry
    time is within an hour of its entry time, else add shift 2. Two
    records: overwrite the one whose entry time is closer, the second on a
    tie. The server writes both signatures exactly as submitted. */
module Reconcile {
  import opened Common
  import opened Clock
  import opened Records

  /** The fields of a save request (already passed through the handler's
      HTML-entity sanitising). A missing string field is "", a missing
      signature None. */
  datatype Submission = Submission(
    userId: string,
    userName: string,
    date: string,
    entryTime: string,
    exitTime: string,
    entrySignature: Option<string>,
    exitSignature: Option<string>)

  /** A successful save: the collection to write back, the index the
      written record occupies, and that record (the handler's response). */
  datatype Saved = Saved(records: seq<Record>, index: nat, written: Record)

  /** The timestamp of 2000-01-01 00:00 UTC. The handler prefixes every time
      with that date before `strtotime`; a time zone shifts it by less than
      a day, which changes no comparison below. */
  const Anchor2000: int := 946684800

  /** Entry times closer than this many seconds are the same shift. */
  const SameShiftSeconds: int := 3600

  /** The first check a submission fails, in the order the handler runs
      them, or None. Patterns are only checked on non-empty fields. */
  function ValidationError(sub: Submission): (e: Option<Error>)
    ensures e.None? <==>
      && (PhpEmpty(sub.date) || MatchesDatePattern(sub.date))
      && (PhpEmpty(sub.entryTime) || MatchesClockPattern(sub.entryTime))
      && (PhpEmpty(sub.exitTime) || MatchesClockPattern(sub.exitTime))
      && !PhpEmpty(sub.userId) && !PhpEmpty(sub.date) && !PhpEmpty(sub.entryTime)
    ensures e.None? ==> MatchesDatePattern(sub.date) && MatchesClockPattern(sub.entryTime)
  {
    if !PhpEmpty(sub.date) && !MatchesDatePattern(sub.date) then Some(InvalidDateFormat)
    else if !PhpEmpty(sub.entryTime) && !MatchesClockPattern(sub.entryTime) then Some(InvalidEntryFormat)
    else if !PhpEmpty(sub.exitTime) && !MatchesClockPattern(sub.exitTime) then Some(InvalidExitFormat)
    else if PhpEmpty(sub.userId) || PhpEmpty(sub.date) || PhpEmpty(sub.entryTime) then Some(IncompleteData)
    else None
  }

  /** Only an admin may save records for someone else. */
  predicate MaySaveFor(actor: Actor, userId: string) {
    IsAdmin(actor) || userId == actor.id
  }

  /** `abs(strtotime("2000-01-01 " . a) - strtotime("2000-01-01 " . b))`. */
  function EntryDistance(a: string, b: string): nat {
    var d := StrToTime(a, Anchor2000) - StrToTime(b, Anchor2000);
    if d < 0 then -d else d
  }

  /** The record the handler writes: every field from the submission, the
      update time `now`, and the shift and creation time the branch chose. */
  function WrittenRecord(sub: Submission, now: string, shift: Option<int>, createdAt: string): Record {
    Record(sub.userId, sub.userName, sub.date, sub.entryTime, sub.exitTime,
           sub.entrySignature, sub.exitSignature, shift, createdAt, now)
  }

  /** The reconciliation step of a valid, authorised submission. */
  function ReconcileDay(sub: Submission, rs: seq<Record>, now: string): (s: Saved)
    ensures s.index < |s.records| && s.records[s.index] == s.written
    ensures |s.records| == |rs| || (|s.records| == |rs| + 1 && s.index == |rs|)
    ensures forall i :: 0 <= i < |rs| && i != s.index ==> s.records[i] == rs[i]
    // the written record comes from the submission, signatures included
    ensures s.written.userId == sub.userId && s.written.userName == sub.userName
    ensures s.written.date == sub.date && s.written.entryTime == sub.entryTime
    ensures s.written.exitTime == sub.exitTime
    ensures s.written.entrySignature == sub.entrySignature
    ensures s.written.exitSignature == sub.exitSignature
    ensures s.written.updatedAt == now
    // an overwritten slot held a record of the same worker and day
    ensures s.index < |rs| ==> SameDay(rs[s.index], sub.userId, sub.date)
    ensures s.index < |rs| ==> s.written.createdAt == rs[s.index].createdAt
    ensures s.index == |rs| ==> s.written.createdAt == now
    // the branches
    ensures var ms := MatchIndices(rs, sub.userId, sub.date);
      && (|ms| == 0 ==> s.index == |rs| && s.written.shift == Some(1))
      && (|ms| == 1 && EntryDistance(sub.entryTime, rs[ms[0]].entryTime) < SameShiftSeconds ==>
            s.index == ms[0] && s.written.shift == rs[ms[0]].shift)
      && (|ms| == 1 && EntryDistance(sub.entryTime, rs[ms[0]].entryTime) >= SameShiftSeconds ==>
            s.index == |rs| && s.written.shift == Some(2))
      && (|ms| >= 2 && EntryDistance(sub.entryTime, rs[ms[0]].entryTime)
                        < EntryDistance(sub.entryTime, rs[ms[1]].entryTime) ==>
            s.index == ms[0] && s.written.shift == Some(1))
      && (|ms| >= 2 && EntryDistance(sub.entryTime, rs[ms[0]].entryTime)
                        >= EntryDistance(sub.entryTime, rs[ms[1]].entryTime) ==>
            s.index == ms[1] && s.written.shift == Some(2))
  {
    var ms := MatchIndices(rs, sub.userId, sub.date);
    if |ms| == 0 then
      var w := WrittenRecord(sub, now, Some(1), now);
      Saved(rs + [w], |rs|, w)
    else if |ms| == 1 then
      var existing := rs[ms[0]];
      if EntryDistance(sub.entryTime, existing.entryTime) < SameShiftSeconds then
        var w := WrittenRecord(sub, now, existing.shift, existing.createdAt);
        Saved(rs[ms[0] := w], ms[0], w)
      else
        var w := WrittenRecord(sub, now, Some(2), now);
        Saved(rs + [w], |rs|, w)
    else
      var first := rs[ms[0]];
      var second := rs[ms[1]];
      if EntryDistance(sub.entryTime, first.entryTime) < EntryDistance(sub.entryTime, second.entryTime) then
        var w := WrittenRecord(sub, now, Some(1), first.createdAt);
        Saved(rs[ms[0] := w], ms[0], w)
      else
        var w := WrittenRecord(sub, now, Some(2), second.createdAt);
        Saved(rs[ms[1] := w], ms[1], w)
  }

  /** The whole save handler: the session check done by the endpoint, the
      validation, the ownership check, then reconciliation. On any error
      nothing is written. */
  function SaveFichaje(session: Option<Actor>, sub: Submission, rs: seq<Record>, now: string): (r: Result<Saved>)
    ensures session.None? ==> r == Err(NotAuthenticated)
    ensures session.Some? && ValidationError(sub).Some? ==> r == Err(ValidationError(sub).value)
    ensures session.Some? && ValidationError(sub).None? && !MaySaveFor(session.value, sub.userId) ==>
              r == Err(CannotSaveForOthers)
    ensures r.Ok? <==> session.Some? && ValidationError(sub).None? && MaySaveFor(session.value, sub.userId)
    ensures r.Ok? ==> r.value == ReconcileDay(sub, rs, now)
  {
    if session.None? then Err(NotAuthenticated)
    else if ValidationError(sub).Some? then Err(ValidationError(sub).value)
    else if !MaySaveFor(session.value, sub.userId) then Err(CannotSaveForOthers)
    else Ok(ReconcileDay(sub, rs, now))
  }

  /** A save changes the record list of the submission's worker and day by
      at most one added index, and no other day's list at all. */
  lemma ReconcileDayLists(sub: Submission, rs: seq<Record>, now: string, userId: string, date: string)
    ensures var s := ReconcileDay(sub, rs, now);
      var before := MatchIndices(rs, userId, date);
      var after := MatchIndices(s.records, userId, date);
      && (!(userId == sub.userId && date == sub.date) ==> after == before)
      && (userId == sub.userId && date == sub.date ==>
            (after == before || after == before + [|rs|]))
      && (userId == sub.userId && date == sub.date && |before| == 0 ==> |after| == 1)
      && (userId == sub.userId && date == sub.date && |before| >= 2 ==> after == before)
  {
    var s := ReconcileDay(sub, rs, now);
    if s.index == |rs| {
      assert s.records == rs + [s.written];
      MatchIndicesAppend(rs, s.written, userId, date);
    } else {
      assert s.records == rs[s.index := s.written];
      MatchIndicesUpdate(rs, s.index, s.written, userId, date);
    }
  }

  /** The cap of two records per worker and day survives every save, and a
      save grows the collection by at most one record. */
  lemma SaveKeepsAtMostTwo(session: Option<Actor>, sub: Submission, rs: seq<Record>, now: string, userId: string, date: string)
    requires |MatchIndices(rs, userId, date)| <= 2
    requires SaveFichaje(session, sub, rs, now).Ok?
    ensures |MatchIndices(SaveFichaje(session, sub, rs, now).value.records, userId, date)| <= 2
    ensures |SaveFichaje(session, sub, rs, now).value.records| <= |rs| + 1
  {
    ReconcileDayLists(sub, rs, now, userId, date);
  }

  /** Saves keep the collection well shifted: each worker-day holds shift 1,
      then shift 2, in array order. In such a collection the handler's
      positional numbering of the two-record case agrees with the stored
      shift field. */
  lemma SavePreservesWellShifted(session: Option<Actor>, sub: Submission, rs: seq<Record>, now: string)
    requires WellShifted(rs)
    requires SaveFichaje(session, sub, rs, now).Ok?
    ensures WellShifted(SaveFichaje(session, sub, rs, now).value.records)
  {
    var s := ReconcileDay(sub, rs, now);
    var ms := MatchIndices(rs, sub.userId, sub.date);
    WellShiftedAtMostTwo(rs, sub.userId, sub.date);
    WellShiftedPositions(rs, sub.userId, sub.date);
    if s.index == |rs| {
      assert s.records == rs + [s.written];
      WellShiftedAppend(rs, s.written);
    } else {
      assert s.records == rs[s.index := s.written];
      WellShiftedUpdate(rs, s.index, s.written);
    }
  }

  /** With readable times, "within an hour" is a statement about the two
      wall-clock times alone. */
  lemma SameShiftByClock(a: string, b: string)
    requires IsValidClock(a) && IsValidClock(b)
    ensures EntryDistance(a, b) < SameShiftSeconds <==>
      -3600 < SecondsOfDay(a) - SecondsOfDay(b) < 3600
  {
    StrToTimeDifference(b, a, Anchor2000);
  }

  /** On readable times the distance is the gap between the clock readings. */
  lemma EntryDistanceOfClocks(a: string, b: string)
    requires IsValidClock(a) && IsValidClock(b)
    ensures EntryDistance(a, b) == if SecondsOfDay(a) >= SecondsOfDay(b) then SecondsOfDay(a) - SecondsOfDay(b)
                                   else SecondsOfDay(b) - SecondsOfDay(a)
  {
    StrToTimeDifference(b, a, Anchor2000);
  }

  /** The 13:05-17:10 submission passes validation. */
  lemma LateEntryIsValid()
    ensures ValidationError(Submission("u1", "Ana", "2024-03-15", "13:05", "17:10", None, None)).None?
  {
    assert IsDateShape("2024-03-15") && IsClockShape("13:05") && IsClockShape("17:10");
  }

  /** 13:05 is five minutes from 13:00 and over five hours from 08:00. */
  lemma LateEntryIsNearerSecond()
    ensures EntryDistance("13:05", "08:00") == 18300
    ensures EntryDistance("13:05", "13:00") == 300
  {
    assert IsValidClock("13:05") && SecondsOfDay("13:05") == 47100;
    assert IsValidClock("08:00") && SecondsOfDay("08:00") == 28800;
    assert IsValidClock("13:00") && SecondsOfDay("13:00") == 46800;
    EntryDistanceOfClocks("13:05", "08:00");
    EntryDistanceOfClocks("13:05", "13:00");
  }

  /** A worker with shift 1 at 08:00-12:00 and shift 2 at 13:00-17:00 who
      submits an entry at 13:05 overwrites shift 2, which keeps number 2. */
  lemma AfternoonCorrectionUpdatesShiftTwo()
    ensures var day := "2024-03-15";
      var r1 := Record("u1", "Ana", day, "08:00", "12:00", None, None, Some(1), "c1", "c1");
      var r2 := Record("u1", "Ana", day, "13:00", "17:00", None, None, Some(2), "c2", "c2");
      var sub := Submission("u1", "Ana", day, "13:05", "17:10", None, None);
      var r := SaveFichaje(Some(Actor("u1", "employee")), sub, [r1, r2], "now");
      && r.Ok? && r.value.index == 1 && r.value.written.shift == Some(2)
      && r.value.written.createdAt == "c2" && r.value.records[0] == r1
  {
    var day := "2024-03-15";
    var r1 := Record("u1", "Ana", day, "08:00", "12:00", None, None, Some(1), "c1", "c1");
    var r2 := Record("u1", "Ana", day, "13:00", "17:00", None, None, Some(2), "c2", "c2");
    var sub := Submission("u1", "Ana", day, "13:05", "17:10", None, None);
    MatchIndicesPair(r1, r2, "u1", day);
    LateEntryIsValid();
    LateEntryIsNearerSecond();
  }
}

=== FILE: records.dfy ===
/** The attendance record ("fichaje") and the queries every other module
    asks of the record collection: which indices hold a worker's records of
    one day, a worker's records, and everything but a worker's records.
    The collection is the ordered array stored in the records file. */
module Records {
  import opened Common

  /** One stored shift. `shift` is None for a record stored without the
      field; the server itself always writes it. Timestamps are the opaque
      strings `date('c')` produced. */
  datatype Record = Record(
    userId: string,
    userName: string,
    date: string,
    entryTime: string,
    exitTime: string,
    entrySignature: Option<string>,
    exitSignature: Option<string>,
    shift: Option<int>,
    createdAt: string,
    updatedAt: string)

  /** The record belongs to this worker and this day. */
  predicate SameDay(r: Record, userId: string, date: string) {
    r.userId == userId && r.date == date
  }

  /** The indices of the worker's records of one day, in array order: the
      list the save handler builds before reconciling. */
  function MatchIndices(rs: seq<Record>, userId: string, date: string): (ix: seq<nat>)
    ensures |ix| <= |rs|
    ensures forall k :: 0 <= k < |ix| ==> ix[k] < |rs| && SameDay(rs[ix[k]], userId, date)
  {
    if |rs| == 0 then []
    else
      var prev := MatchIndices(rs[..|rs| - 1], userId, date);
      if SameDay(rs[|rs| - 1], userId, date) then prev + [|rs| - 1] else prev
  }

  /** The day's list is in increasing array order and misses none of the
      worker's records of that day. */
  lemma {:induction false} MatchIndicesComplete(rs: seq<Record>, userId: string, date: string)
    ensures var ix := MatchIndices(rs, userId, date);
      && (forall k, l :: 0 <= k < l < |ix| ==> ix[k] < ix[l])
      && (forall i :: 0 <= i < |rs| && SameDay(rs[i], userId, date) ==> i in ix)
    decreases |rs|
  {
    if |rs| > 0 {
      var n := |rs|;
      MatchIndicesComplete(rs[..n - 1], userId, date);
      forall i | 0 <= i < n - 1 && SameDay(rs[i], userId, date)
        ensures i in MatchIndices(rs[..n - 1], userId, date)
      {
        assert rs[..n - 1][i] == rs[i];
      }
    }
  }

  /** Appending a record adds its index to its own day's list and to no other. */
  lemma MatchIndicesAppend(rs: seq<Record>, x: Record, userId: string, date: string)
    ensures MatchIndices(rs + [x], userId, date)
         == MatchIndices(rs, userId, date) + (if SameDay(x, userId, date) then [|rs|] else [])
  {
    assert (rs + [x])[..|rs|] == rs;
  }

  /** A one-record collection of the day lists that record. */
  lemma MatchIndicesSingle(a: Record, userId: string, date: string)
    requires SameDay(a, userId, date)
    ensures MatchIndices([a], userId, date) == [0]
  {
    assert [a][..0] == [];
  }

  /** A two-record collection of the same day lists both, in order. */
  lemma MatchIndicesPair(a: Record, b: Record, userId: string, date: string)
    requires SameDay(a, userId, date) && SameDay(b, userId, date)
    ensures MatchIndices([a, b], userId, date) == [0, 1]
  {
    assert [a, b][..1] == [a];
    MatchIndicesSingle(a, userId, date);
  }

  /** Overwriting a record with one of the same worker and day leaves every
      day's list as it was. */
  lemma {:induction false} MatchIndicesUpdate(rs: seq<Record>, k: nat, x: Record, userId: string, date: string)
    requires k < |rs|
    requires x.userId == rs[k].userId && x.date == rs[k].date
    ensures MatchIndices(rs[k := x], userId, date) == MatchIndices(rs, userId, date)
    decreases |rs|
  {
    var rs' := rs[k := x];
    var n := |rs|;
    if k < n - 1 {
      assert rs'[..n - 1] == rs[..n - 1][k := x];
      assert rs'[n - 1] == rs[n - 1];
      MatchIndicesUpdate(rs[..n - 1], k, x, userId, date);
    } else {
      assert rs'[..n - 1] == rs[..n - 1];
      assert SameDay(rs'[n - 1], userId, date) == SameDay(rs[n - 1], userId, date);
    }
  }

  /** Before the last record, the day's list is the list of the shorter
      collection. */
  lemma MatchIndicesInit(rs: seq<Record>, userId: string, date: string, j: nat)
    requires |rs| > 0
    requires j < |MatchIndices(rs[..|rs| - 1], userId, date)|
    ensures j < |MatchIndices(rs, userId, date)|
    ensures MatchIndices(rs, userId, date)[j] == MatchIndices(rs[..|rs| - 1], userId, date)[j]
  {
  }

  /** The j-th record of the day's list has exactly j of the day's records
      before it. */
  lemma {:induction false} MatchIndicesPrefix(rs: seq<Record>, userId: string, date: string, j: nat)
    requires j < |MatchIndices(rs, userId, date)|
    ensures |MatchIndices(rs[..MatchIndices(rs, userId, date)[j]], userId, date)| == j
    decreases |rs|
  {
    var n := |rs|;
    var prev := MatchIndices(rs[..n - 1], userId, date);
    if j < |prev| {
      MatchIndicesInit(rs, userId, date, j);
      MatchIndicesPrefix(rs[..n - 1], userId, date, j);
      assert rs[..n - 1][..prev[j]] == rs[..prev[j]];
    } else {
      assert MatchIndices(rs, userId, date)[j] == n - 1;
    }
  }

  /** The records of one worker, in order: the filter of the records GET
      handler and of the dashboard statistics. */
  function UserRecords(rs: seq<Record>, userId: string): (out: seq<Record>)
    ensures |out| <= |rs|
    ensures forall r :: r in out <==> r in rs && r.userId == userId
  {
    if |rs| == 0 then []
    else
      var prev := UserRecords(rs[..|rs| - 1], userId);
      if rs[|rs| - 1].userId == userId then prev + [rs[|rs| - 1]] else prev
  }

  /** Every record except the worker's, in order: the cascade that removing
      a user applies to the records file. */
  function WithoutUser(rs: seq<Record>, userId: string): (out: seq<Record>)
    ensures |out| <= |rs|
    ensures forall r :: r in out <==> r in rs && r.userId != userId
  {
    if |rs| == 0 then []
    else
      var prev := WithoutUser(rs[..|rs| - 1], userId);
      if rs[|rs| - 1].userId != userId then prev + [rs[|rs| - 1]] else prev
  }

  /** Both filters keep relative order: filtering a concatenation is
      concatenating the filtered parts. */
  lemma {:induction false} FiltersDistribute(a: seq<Record>, b: seq<Record>, userId: string)
    ensures UserRecords(a + b, userId) == UserRecords(a, userId) + UserRecords(b, userId)
    ensures WithoutUser(a + b, userId) == WithoutUser(a, userId) + WithoutUser(b, userId)
    decreases |b|
  {
    if |b| > 0 {
      var n := |b|;
      assert (a + b)[..|a + b| - 1] == a + b[..n - 1];
      FiltersDistribute(a, b[..n - 1], userId);
    } else {
      assert a + b == a;
    }
  }

  /** Filtering splits the collection: every record goes to exactly one side. */
  lemma {:induction false} FiltersPartition(rs: seq<Record>, userId: string)
    ensures |UserRecords(rs, userId)| + |WithoutUser(rs, userId)| == |rs|
    decreases |rs|
  {
    if |rs| > 0 {
      FiltersPartition(rs[..|rs| - 1], userId);
    }
  }

  /** Removing a worker's records leaves every other worker's day lists of
      the same length. */
  lemma {:induction false} WithoutUserKeepsOtherDays(rs: seq<Record>, removed: string, userId: string, date: string)
    requires userId != removed
    ensures |MatchIndices(WithoutUser(rs, removed), userId, date)| == |MatchIndices(rs, userId, date)|
    decreases |rs|
  {
    if |rs| > 0 {
      var n := |rs|;
      var prev := WithoutUser(rs[..n - 1], removed);
      var extra := if SameDay(rs[n - 1], userId, date) then 1 else 0;
      assert |MatchIndices(rs, userId, date)| == |MatchIndices(rs[..n - 1], userId, date)| + extra;
      WithoutUserKeepsOtherDays(rs[..n - 1], removed, userId, date);
      if rs[n - 1].userId != removed {
        assert WithoutUser(rs, removed) == prev + [rs[n - 1]];
        MatchIndicesAppend(prev, rs[n - 1], userId, date);
      } else {
        assert WithoutUser(rs, removed) == prev;
      }
    }
  }

  /** The shape the save handler keeps: reading the array in order, each
      worker's records of a day are numbered shift 1 and then shift 2, and
      there are never more than two. */
  predicate WellShifted(rs: seq<Record>) {
    if |rs| == 0 then true
    else
      var last := rs[|rs| - 1];
      var before := |MatchIndices(rs[..|rs| - 1], last.userId, last.date)|;
      && WellShifted(rs[..|rs| - 1])
      && before < 2
      && last.shift == Some(before + 1)
  }

  /** In a well-shifted collection a record's shift is one more than the
      number of earlier records of the same worker and day. */
  lemma {:induction false} WellShiftedAt(rs: seq<Record>, i: nat)
    requires WellShifted(rs) && i < |rs|
    ensures |MatchIndices(rs[..i], rs[i].userId, rs[i].date)| < 2
    ensures rs[i].shift == Some(|MatchIndices(rs[..i], rs[i].userId, rs[i].date)| + 1)
    decreases |rs|
  {
    if i < |rs| - 1 {
      WellShiftedAt(rs[..|rs| - 1], i);
      assert rs[..|rs| - 1][..i] == rs[..i];
    }
  }

  /** A well-shifted collection has at most two records per worker and day. */
  lemma {:induction false} WellShiftedAtMostTwo(rs: seq<Record>, userId: string, date: string)
    requires WellShifted(rs)
    ensures |MatchIndices(rs, userId, date)| <= 2
    decreases |rs|
  {
    if |rs| > 0 {
      WellShiftedAtMostTwo(rs[..|rs| - 1], userId, date);
    }
  }

  /** When a worker has two records of a day in a well-shifted collection,
      the first one found is shift 1 and the second is shift 2: numbering
      them by position, as the save handler does, agrees with the stored
      field. */
  lemma WellShiftedPositions(rs: seq<Record>, userId: string, date: string)
    requires WellShifted(rs)
    ensures var ms := MatchIndices(rs, userId, date);
      && (|ms| >= 1 ==> rs[ms[0]].shift == Some(1))
      && (|ms| >= 2 ==> rs[ms[1]].shift == Some(2))
  {
    var ms := MatchIndices(rs, userId, date);
    if |ms| >= 1 {
      MatchIndicesPrefix(rs, userId, date, 0);
      WellShiftedAt(rs, ms[0]);
    }
    if |ms| >= 2 {
      MatchIndicesPrefix(rs, userId, date, 1);
      WellShiftedAt(rs, ms[1]);
    }
  }

  /** Appending keeps the shape exactly when the new record is numbered one
      past its day's existing records and there were fewer than two. */
  lemma WellShiftedAppend(rs: seq<Record>, x: Record)
    requires WellShifted(rs)
    requires |MatchIndices(rs, x.userId, x.date)| < 2
    requires x.shift == Some(|MatchIndices(rs, x.userId, x.date)| + 1)
    ensures WellShifted(rs + [x])
  {
    assert (rs + [x])[..|rs|] == rs;
  }

  /** Overwriting a record with one of the same worker, day and shift keeps
      the shape. */
  lemma {:induction false} WellShiftedUpdate(rs: seq<Record>, k: nat, x: Record)
    requires WellShifted(rs) && k < |rs|
    requires x.userId == rs[k].userId && x.date == rs[k].date && x.shift == rs[k].shift
    ensures WellShifted(rs[k := x])
    decreases |rs|
  {
    var n := |rs|;
    var rs' := rs[k := x];
    if k < n - 1 {
      assert rs'[..n - 1] == rs[..n - 1][k := x];
      WellShiftedUpdate(rs[..n - 1], k, x);
      MatchIndicesUpdate(rs[..n - 1], k, x, rs[n - 1].userId, rs[n - 1].date);
    } else {
      assert rs'[..n - 1] == rs[..n - 1];
    }
  }

  /** Deleting a user's records keeps the shape. */
  lemma {:induction false} WithoutUserWellShifted(rs: seq<Record>, removed: string)
    requires WellShifted(rs)
    ensures WellShifted(WithoutUser(rs, removed))
    decreases |rs|
  {
    if |rs| > 0 {
      var n := |rs|;
      var last := rs[n - 1];
      var prev := WithoutUser(rs[..n - 1], removed);
      WithoutUserWellShifted(rs[..n - 1], removed);
      if last.userId != removed {
        WithoutUserKeepsOtherDays(rs[..n - 1], removed, last.userId, last.date);
        WellShiftedAppend(prev, last);
      }
    }
  }
}

=== FILE: report.dfy ===
/** The monthly report the browser assembles for one worker: the company
    header with its fixed fallback, the 31-row two-shift grid with clamped
    per-shift hours and the monthly total, and the choice of the worker's
    signature. Hours are seconds; the two-decimal formatting is not part of
    the model. */
module Report {
  import opened Common
  import opened Clock
  import opened Records
  import opened Stats
  import opened Companies

  // ----- company header -----

  datatype Header = Header(name: string, cif: string, address: string, ccc: string)

  /** The header printed when the worker has no company profile. */
  const FallbackHeader: Header :=
    Header("ALBALUZ DESARROLLOS URBANOS, S.A.", "A98543432", "ALBALUZ DESARROLLOS URBANOS S.A", "02/1089856/19")

  /** The profile the report uses: the first company whose id is the
      worker's `companyProfileId`, when that is set. */
  function ProfileFor(companyProfileId: Option<string>, cs: seq<Company>): (p: Option<Company>)
    ensures !JsPresent(companyProfileId) ==> p.None?
    ensures p.Some? ==> p.value in cs && p.value.id == companyProfileId.value
    ensures JsPresent(companyProfileId) && HasCompanyId(cs, companyProfileId.value) ==> p.Some?
  {
    if !JsPresent(companyProfileId) then None
    else
      match FirstCompany(cs, companyProfileId.value)
      case None => None
      case Some(k) => Some(cs[k])
  }

  /** The header fields: the profile's own, except an empty address, which
      falls back to the profile's name; without a profile, the fixed ones. */
  function CompanyHeader(profile: Option<Company>): (h: Header)
    ensures profile.None? ==> h == FallbackHeader
    ensures profile.Some? ==>
      && h.name == profile.value.name && h.cif == profile.value.cif && h.ccc == profile.value.ccc
      && (JsTruthy(profile.value.address) ==> h.address == profile.value.address)
      && (!JsTruthy(profile.value.address) ==> h.address == profile.value.name)
  {
    match profile
    case None => FallbackHeader
    case Some(c) => Header(c.name, c.cif, if JsTruthy(c.address) then c.address else c.name, c.ccc)
  }

  /** The default profile the server creates prints exactly the fallback
      header, so a worker sees the same header with it or without a profile. */
  lemma DefaultProfileMatchesFallback(now: string)
    ensures CompanyHeader(Some(DefaultCompany(now))) == CompanyHeader(None)
  {
  }

  /** The seal printed under the company: the profile's, when it has one. */
  function CompanySeal(profile: Option<Company>): (seal: Option<string>)
    ensures seal.Some? <==> profile.Some? && JsTruthy(profile.value.sealImage)
    ensures seal.Some? ==> seal.value == profile.value.sealImage
  {
    if profile.Some? && JsTruthy(profile.value.sealImage) then Some(profile.value.sealImage) else None
  }

  // ----- the grid -----

  /** The number of day rows, whatever the month's length. */
  const GridDays: nat := 31

  /** A record fills slot `shift` of a day when its date is the day's key
      and its stored shift is exactly that number. */
  predicate FillsSlot(r: Record, key: string, shift: int) {
    r.date == key && r.shift == Some(shift)
  }

  /** `dayFichajes.find(f => f.shift === shift)`: the first record of the
      day's key with that shift. */
  function FirstWithShift(recs: seq<Record>, key: string, shift: int): (k: Option<nat>)
    ensures k.None? <==> forall i :: 0 <= i < |recs| ==> !FillsSlot(recs[i], key, shift)
    ensures k.Some? ==> k.value < |recs| && FillsSlot(recs[k.value], key, shift)
    ensures k.Some? ==> forall j :: 0 <= j < k.value ==> !FillsSlot(recs[j], key, shift)
  {
    if |recs| == 0 then None
    else if FillsSlot(recs[0], key, shift) then Some(0)
    else
      var rest := FirstWithShift(recs[1..], key, shift);
      assert forall j :: 1 <= j < |recs| ==> recs[j] == recs[1..][j - 1];
      if rest.Some? then Some(rest.value + 1) else None
  }

  /** The first index that fills a slot is the one the lookup returns. */
  lemma FirstWithShiftIs(recs: seq<Record>, key: string, shift: int, k: nat)
    requires k < |recs| && FillsSlot(recs[k], key, shift)
    requires forall j :: 0 <= j < k ==> !FillsSlot(recs[j], key, shift)
    ensures FirstWithShift(recs, key, shift) == Some(k)
  {
    var f := FirstWithShift(recs, key, shift);
    assert f.Some?;
    assert !(f.value < k);
    assert !(k < f.value);
  }

  /** The seconds a shift adds to the grid: the time from entry to exit
      when both are set, the browser can read both and the exit is later;
      0 otherwise, so never negative. */
  function ShiftSeconds(entry: string, exit: string): (n: nat)
    ensures n > 0 <==>
      JsTruthy(entry) && JsTruthy(exit) && IsValidClock(entry) && IsValidClock(exit)
      && SecondsOfDay(exit) > SecondsOfDay(entry)
    ensures n > 0 ==> n == SecondsOfDay(exit) - SecondsOfDay(entry)
  {
    if JsTruthy(entry) && JsTruthy(exit) then
      match (JsClockSeconds(entry), JsClockSeconds(exit))
      case (Some(start), Some(end)) => if end > start then end - start else 0
      case _ => 0
    else 0
  }

  /** On readable times the grid clamps what the dashboard adds: the grid
      shows the dashboard's (possibly negative) amount, or 0 when that is
      not positive. */
  lemma GridClampsDashboardHours(r: Record, midnight: int)
    requires IsValidClock(r.entryTime) && IsValidClock(r.exitTime)
    ensures var w := WorkedSeconds(r, midnight);
      ShiftSeconds(r.entryTime, r.exitTime) == if w > 0 then w else 0
  {
    assert IsComplete(r);
    assert StripFinalNewline(r.entryTime) == r.entryTime;
    assert StripFinalNewline(r.exitTime) == r.exitTime;
  }

  /** One shift's cells: times (empty when there is no record), its
      seconds, and the signatures when set. */
  datatype Slot = Slot(entry: string, exit: string, seconds: nat, entrySig: Option<string>, exitSig: Option<string>)

  /** `if (shift.entrySignature)`: the signature when it is a non-empty string. */
  function SignatureCell(s: Option<string>): (cell: Option<string>)
    ensures cell.Some? <==> JsPresent(s)
    ensures cell.Some? ==> cell == s
  {
    if JsPresent(s) then s else None
  }

  function SlotOf(recs: seq<Record>, k: Option<nat>): (s: Slot)
    requires k.Some? ==> k.value < |recs|
    ensures k.None? ==> s == Slot("", "", 0, None, None)
    ensures k.Some? ==>
      var r := recs[k.value];
      && s.entry == r.entryTime && s.exit == r.exitTime
      && s.seconds == ShiftSeconds(r.entryTime, r.exitTime)
      && s.entrySig == SignatureCell(r.entrySignature) && s.exitSig == SignatureCell(r.exitSignature)
  {
    match k
    case None => Slot("", "", 0, None, None)
    case Some(i) =>
      var r := recs[i];
      Slot(r.entryTime, r.exitTime, ShiftSeconds(r.entryTime, r.exitTime),
           SignatureCell(r.entrySignature), SignatureCell(r.exitSignature))
  }

  /** A day row: the day number, the date key it looks up, and both shifts. */
  datatype DayRow = DayRow(day: nat, key: string, first: Slot, second: Slot)

  function DaySeconds(row: DayRow): nat {
    row.first.seconds + row.second.seconds
  }

  /** A total cell: the seconds, or blank when there are none. */
  function Cell(seconds: nat): (cell: Option<nat>)
    ensures cell.None? <==> seconds == 0
    ensures cell.Some? ==> cell.value == seconds
  {
    if seconds > 0 then Some(seconds) else None
  }

  /** The row for day `day` of the zero-based month `month0` of `year`. */
  function DayRowFor(recs: seq<Record>, year: nat, month0: nat, day: nat): (row: DayRow)
    ensures row.day == day && row.key == DateKey(year, month0, day)
    ensures (forall i :: 0 <= i < |recs| ==> recs[i].date != row.key) ==>
      row.first == Slot("", "", 0, None, None) && row.second == Slot("", "", 0, None, None)
  {
    var key := DateKey(year, month0, day);
    DayRow(day, key, SlotOf(recs, FirstWithShift(recs, key, 1)), SlotOf(recs, FirstWithShift(recs, key, 2)))
  }

  /** For one well-shifted worker, each row shows the worker's first and
      second records of its date, and an empty slot where there is none. */
  lemma DayRowShowsRecords(recs: seq<Record>, userId: string, year: nat, month0: nat, day: nat)
    requires WellShifted(recs)
    requires forall i :: 0 <= i < |recs| ==> recs[i].userId == userId
    ensures var row := DayRowFor(recs, year, month0, day);
      var ms := MatchIndices(recs, userId, row.key);
      && (|ms| >= 1 ==> row.first == SlotOf(recs, Some(ms[0])))
      && (|ms| == 0 ==> row.first == SlotOf(recs, None))
      && (|ms| >= 2 ==> row.second == SlotOf(recs, Some(ms[1])))
      && (|ms| <= 1 ==> row.second == SlotOf(recs, None))
  {
    var key := DateKey(year, month0, day);
    FirstSlotIsFirstMatch(recs, userId, key);
    SecondSlotIsSecondMatch(recs, userId, key);
  }

  /** The sum of the day totals. */
  function SumDays(rows: seq<DayRow>): nat {
    if |rows| == 0 then 0 else SumDays(rows[..|rows| - 1]) + DaySeconds(rows[|rows| - 1])
  }

  /** The monthly total is 0 exactly when every day's total cell is blank. */
  lemma {:induction false} SumDaysZero(rows: seq<DayRow>)
    ensures SumDays(rows) == 0 <==> forall i :: 0 <= i < |rows| ==> DaySeconds(rows[i]) == 0
    decreases |rows|
  {
    if |rows| > 0 {
      SumDaysZero(rows[..|rows| - 1]);
      assert forall i :: 0 <= i < |rows| - 1 ==> rows[..|rows| - 1][i] == rows[i];
    }
  }

  /** The total row is blank exactly when every day's total cell is. */
  lemma TotalBlankIffDaysBlank(rows: seq<DayRow>)
    ensures Cell(SumDays(rows)).None? <==> forall i :: 0 <= i < |rows| ==> Cell(DaySeconds(rows[i])).None?
  {
    SumDaysZero(rows);
  }

  datatype Grid = Grid(rows: seq<DayRow>, totalSeconds: nat)

  /** The rows for days 1 to `n`, in order. */
  function GridRows(recs: seq<Record>, year: nat, month0: nat, n: nat): (rows: seq<DayRow>)
    ensures |rows| == n
    decreases n
  {
    if n == 0 then [] else GridRows(recs, year, month0, n - 1) + [DayRowFor(recs, year, month0, n)]
  }

  /** Row `i` of the first `n` rows is the row of day `i + 1`. */
  lemma {:induction false} GridRowsAt(recs: seq<Record>, year: nat, month0: nat, n: nat, i: nat)
    requires i < n
    ensures GridRows(recs, year, month0, n)[i] == DayRowFor(recs, year, month0, i + 1)
    decreases n
  {
    if i < n - 1 {
      var prev := GridRows(recs, year, month0, n - 1);
      GridRowsAt(recs, year, month0, n - 1, i);
      assert GridRows(recs, year, month0, n)[i] == prev[i];
    }
  }

  /** The grid loop: days 1 to 31 in order and the running monthly total,
      which the total row shows through `Cell`. */
  method BuildGrid(recs: seq<Record>, year: nat, month0: nat) returns (g: Grid)
    ensures |g.rows| == GridDays && g.rows == GridRows(recs, year, month0, GridDays)
    ensures g.totalSeconds == SumDays(g.rows)
  {
    var rows: seq<DayRow> := [];
    var total: nat := 0;
    var day: nat := 1;
    while day <= GridDays
      invariant 1 <= day <= GridDays + 1
      invariant rows == GridRows(recs, year, month0, day - 1)
      invariant total == SumDays(rows)
    {
      var row := DayRowFor(recs, year, month0, day);
      assert (rows + [row])[..|rows|] == rows;
      rows := rows + [row];
      total := total + DaySeconds(row);
      day := day + 1;
    }
    g := Grid(rows, total);
  }

  /** For a four-digit year and a month, the 31 rows look up 31 different
      `YYYY-MM-DD` keys, so no record lands in two rows. */
  lemma GridKeysDistinct(year: nat, month0: nat, d1: nat, d2: nat)
    requires 1000 <= year <= 9999 && month0 < 12
    requires 1 <= d1 <= GridDays && 1 <= d2 <= GridDays && d1 != d2
    ensures IsDateShape(DateKey(year, month0, d1))
    ensures DateKey(year, month0, d1) != DateKey(year, month0, d2)
  {
    DateKeyRoundTrip(year, month0, d1);
    DateKeyRoundTrip(year, month0, d2);
  }

  /** For a single worker's records, a record of the day is one of the
      day's matches. */
  lemma DayRecordIsMatch(recs: seq<Record>, userId: string, key: string, i: nat)
    requires forall j :: 0 <= j < |recs| ==> recs[j].userId == userId
    requires i < |recs| && recs[i].date == key
    ensures i in MatchIndices(recs, userId, key)
  {
    assert SameDay(recs[i], userId, key);
    MatchIndicesComplete(recs, userId, key);
  }

  /** For a single worker's records, a record of the day lying before the
      day's second record is the day's first record. */
  lemma EarlierMatchIsFirst(recs: seq<Record>, userId: string, key: string, j: nat)
    requires forall i :: 0 <= i < |recs| ==> recs[i].userId == userId
    requires |MatchIndices(recs, userId, key)| >= 2
    requires j < MatchIndices(recs, userId, key)[1] && recs[j].date == key
    ensures j == MatchIndices(recs, userId, key)[0]
  {
    var ms := MatchIndices(recs, userId, key);
    DayRecordIsMatch(recs, userId, key, j);
    MatchIndicesComplete(recs, userId, key);
    var k :| 0 <= k < |ms| && ms[k] == j;
  }

  /** Slot 1 of a day holds the day's first record. */
  lemma FirstSlotIsFirstMatch(recs: seq<Record>, userId: string, key: string)
    requires WellShifted(recs)
    requires forall i :: 0 <= i < |recs| ==> recs[i].userId == userId
    ensures var ms := MatchIndices(recs, userId, key);
      && (|ms| >= 1 ==> FirstWithShift(recs, key, 1) == Some(ms[0]))
      && (|ms| == 0 ==> FirstWithShift(recs, key, 1).None?)
  {
    var ms := MatchIndices(recs, userId, key);
    WellShiftedPositions(recs, userId, key);
    if |ms| >= 1 {
      forall j | 0 <= j < ms[0]
        ensures !FillsSlot(recs[j], key, 1)
      {
        if recs[j].date == key {
          DayRecordIsMatch(recs, userId, key, j);
        }
      }
      FirstWithShiftIs(recs, key, 1, ms[0]);
    } else {
      forall i | 0 <= i < |recs|
        ensures !FillsSlot(recs[i], key, 1)
      {
        if recs[i].date == key {
          DayRecordIsMatch(recs, userId, key, i);
        }
      }
    }
  }

  /** Slot 2 of a day holds the day's second record, and is empty when
      the day has fewer than two. */
  lemma SecondSlotIsSecondMatch(recs: seq<Record>, userId: string, key: string)
    requires WellShifted(recs)
    requires forall i :: 0 <= i < |recs| ==> recs[i].userId == userId
    ensures var ms := MatchIndices(recs, userId, key);
      && (|ms| >= 2 ==> FirstWithShift(recs, key, 2) == Some(ms[1]))
      && (|ms| <= 1 ==> FirstWithShift(recs, key, 2).None?)
  {
    var ms := MatchIndices(recs, userId, key);
    WellShiftedPositions(recs, userId, key);
    if |ms| >= 2 {
      forall j | 0 <= j < ms[1]
        ensures !FillsSlot(recs[j], key, 2)
      {
        if recs[j].date == key {
          EarlierMatchIsFirst(recs, userId, key, j);
        }
      }
      FirstWithShiftIs(recs, key, 2, ms[1]);
    } else {
      forall i | 0 <= i < |recs|
        ensures !FillsSlot(recs[i], key, 2)
      {
        if recs[i].date == key {
          DayRecordIsMatch(recs, userId, key, i);
        }
      }
    }
  }

  // ----- the worker's signature -----

  /** A record whose exit signature is a non-empty string. */
  predicate ExitSigned(r: Record) {
    JsPresent(r.exitSignature)
  }

  /** The head of the records with an exit signature once stably sorted by
      date, latest first: a signed record with the latest date, the first
      such in array order. Dates compare as strings, which for `YYYY-MM-DD`
      is the order of the days. */
  function LatestSigned(recs: seq<Record>): (k: Option<nat>)
    ensures k.None? <==> forall i :: 0 <= i < |recs| ==> !ExitSigned(recs[i])
    ensures k.Some? ==> k.value < |recs| && ExitSigned(recs[k.value])
    ensures k.Some? ==> forall i :: 0 <= i < |recs| && ExitSigned(recs[i]) ==> !LexLess(recs[k.value].date, recs[i].date)
    ensures k.Some? ==> forall i :: 0 <= i < k.value && ExitSigned(recs[i]) ==> LexLess(recs[i].date, recs[k.value].date)
  {
    if |recs| == 0 then None
    else
      var n := |recs|;
      var prev := LatestSigned(recs[..n - 1]);
      var last := recs[n - 1];
      assert forall i :: 0 <= i < n - 1 ==> recs[..n - 1][i] == recs[i];
      if !ExitSigned(last) then prev
      else if prev.None? then
        LexLessIrreflexive(last.date);
        Some(n - 1)
      else if LexLess(recs[prev.value].date, last.date) then
        LatestMoves(recs, prev.value);
        Some(n - 1)
      else
        Some(prev.value)
  }

  /** The step where a later-dated signed record takes over the lead. */
  lemma LatestMoves(recs: seq<Record>, p: nat)
    requires 0 < |recs| && p < |recs| - 1
    requires LexLess(recs[p].date, recs[|recs| - 1].date)
    requires forall i :: 0 <= i < |recs| - 1 && ExitSigned(recs[i]) ==> !LexLess(recs[p].date, recs[i].date)
    requires forall i :: 0 <= i < p && ExitSigned(recs[i]) ==> LexLess(recs[i].date, recs[p].date)
    ensures forall i :: 0 <= i < |recs| - 1 && ExitSigned(recs[i]) ==> LexLess(recs[i].date, recs[|recs| - 1].date)
    ensures forall i :: 0 <= i < |recs| && ExitSigned(recs[i]) ==> !LexLess(recs[|recs| - 1].date, recs[i].date)
  {
    var last := recs[|recs| - 1].date;
    forall i | 0 <= i < |recs| - 1 && ExitSigned(recs[i])
      ensures LexLess(recs[i].date, last)
    {
      LexLessTrichotomy(recs[p].date, recs[i].date);
      if recs[i].date != recs[p].date {
        LexLessTransitive(recs[i].date, recs[p].date, last);
      }
    }
    forall i | 0 <= i < |recs| && ExitSigned(recs[i])
      ensures !LexLess(last, recs[i].date)
    {
      LexLessIrreflexive(last);
      if i < |recs| - 1 && LexLess(last, recs[i].date) {
        LexLessTransitive(recs[i].date, last, recs[i].date);
        LexLessIrreflexive(recs[i].date);
      }
    }
  }

  /** The choice is determined by the sort's two properties: any signed
      record with no later signed record and only strictly earlier signed
      records before it is the one chosen. */
  lemma LatestSignedUnique(recs: seq<Record>, k: nat)
    requires k < |recs| && ExitSigned(recs[k])
    requires forall i :: 0 <= i < |recs| && ExitSigned(recs[i]) ==> !LexLess(recs[k].date, recs[i].date)
    requires forall i :: 0 <= i < k && ExitSigned(recs[i]) ==> LexLess(recs[i].date, recs[k].date)
    ensures LatestSigned(recs) == Some(k)
  {
    var c := LatestSigned(recs);
    assert c.Some?;
    var m := c.value;
    if m < k {
      assert false;
    } else if k < m {
      assert false;
    }
  }

  /** `mainSignatureData`: the worker's stored signature when set, else the
      exit signature of the latest signed record, else nothing. */
  function WorkerSignature(mainSignature: Option<string>, recs: seq<Record>): (sig: Option<string>)
    ensures JsPresent(mainSignature) ==> sig == mainSignature
    ensures !JsPresent(mainSignature) && (forall i :: 0 <= i < |recs| ==> !ExitSigned(recs[i])) ==> sig.None?
    ensures !JsPresent(mainSignature) && (exists i :: 0 <= i < |recs| && ExitSigned(recs[i])) ==>
      exists i :: 0 <= i < |recs| && ExitSigned(recs[i]) && sig == recs[i].exitSignature
        && (forall j :: 0 <= j < |recs| && ExitSigned(recs[j]) ==> !LexLess(recs[i].date, recs[j].date))
        && (forall j :: 0 <= j < i && ExitSigned(recs[j]) ==> LexLess(recs[j].date, recs[i].date))
  {
    if JsPresent(mainSignature) then mainSignature
    else
      match LatestSigned(recs)
      case None => None
      case Some(k) => recs[k].exitSignature
  }
}

=== FILE: stats.dfy ===
/** The statistics endpoint: a worker's dashboard (hours today, this month
    and this year, distinct days worked this month, average per day) and the
    admin dashboard (user count, records dated today, hours today). Hours are
    kept as seconds; `calculateHours` is not clamped, so a record whose exit
    is before its entry subtracts time. */
module Stats {
  import opened Common
  import opened Clock
  import opened Records

  datatype DashboardStats = DashboardStats(
    todaySeconds: int,
    monthSeconds: int,
    daysWorked: nat,
    yearSeconds: int,
    avgDailyHours: real)

  datatype AdminStats = AdminStats(totalUsers: nat, activeToday: nat, totalSecondsToday: int)

  /** PHP's `$f['entryTime'] && $f['exitTime']`. */
  predicate IsComplete(r: Record) {
    !PhpEmpty(r.entryTime) && !PhpEmpty(r.exitTime)
  }

  /** What one record adds: `calculateHours(entry, exit)` in seconds when
      both times are set, nothing otherwise. `strtotime` reads a bare time
      on the current day, whose midnight is `midnight`. */
  function WorkedSeconds(r: Record, midnight: int): (n: int)
    ensures !IsComplete(r) ==> n == 0
    ensures IsComplete(r) && IsValidClock(r.entryTime) && IsValidClock(r.exitTime) ==>
      n == SecondsOfDay(r.exitTime) - SecondsOfDay(r.entryTime)
  {
    if IsComplete(r) then StrToTime(r.exitTime, midnight) - StrToTime(r.entryTime, midnight) else 0
  }

  /** `strpos(s, p) === 0`. */
  predicate HasPrefix(p: string, s: string) {
    |p| <= |s| && s[..|p|] == p
  }

  /** Seconds worked on records dated exactly `day`. */
  function SecondsOn(rs: seq<Record>, day: string, midnight: int): int {
    if |rs| == 0 then 0
    else
      SecondsOn(rs[..|rs| - 1], day, midnight)
      + (if rs[|rs| - 1].date == day then WorkedSeconds(rs[|rs| - 1], midnight) else 0)
  }

  /** Seconds worked on records whose date starts with `prefix`. */
  function SecondsWithPrefix(rs: seq<Record>, prefix: string, midnight: int): int {
    if |rs| == 0 then 0
    else
      SecondsWithPrefix(rs[..|rs| - 1], prefix, midnight)
      + (if HasPrefix(prefix, rs[|rs| - 1].date) then WorkedSeconds(rs[|rs| - 1], midnight) else 0)
  }

  /** A day without a complete record counts nothing, and a day counts
      nothing negative unless one of its records has its exit before its
      entry. */
  lemma {:induction false} SecondsOnBounds(rs: seq<Record>, day: string, midnight: int)
    ensures (forall i :: 0 <= i < |rs| ==> rs[i].date != day || !IsComplete(rs[i])) ==> SecondsOn(rs, day, midnight) == 0
    ensures (forall i :: 0 <= i < |rs| ==> WorkedSeconds(rs[i], midnight) >= 0) ==> SecondsOn(rs, day, midnight) >= 0
    decreases |rs|
  {
    if |rs| > 0 {
      var init := rs[..|rs| - 1];
      assert forall i :: 0 <= i < |init| ==> init[i] == rs[i];
      SecondsOnBounds(init, day, midnight);
    }
  }

  /** The same for a month or a year: nothing without a complete record
      under the prefix, nothing negative unless a record subtracts. */
  lemma {:induction false} SecondsWithPrefixBounds(rs: seq<Record>, prefix: string, midnight: int)
    ensures (forall i :: 0 <= i < |rs| ==> !HasPrefix(prefix, rs[i].date) || !IsComplete(rs[i])) ==>
      SecondsWithPrefix(rs, prefix, midnight) == 0
    ensures (forall i :: 0 <= i < |rs| ==> WorkedSeconds(rs[i], midnight) >= 0) ==>
      SecondsWithPrefix(rs, prefix, midnight) >= 0
    decreases |rs|
  {
    if |rs| > 0 {
      var init := rs[..|rs| - 1];
      assert forall i :: 0 <= i < |init| ==> init[i] == rs[i];
      SecondsWithPrefixBounds(init, prefix, midnight);
    }
  }

  /** The distinct dates starting with `month`, as a set. */
  function MonthDates(rs: seq<Record>, month: string): set<string> {
    set i | 0 <= i < |rs| && HasPrefix(month, rs[i].date) :: rs[i].date
  }

  /** The loop's `$workedDates`: each date with the month prefix, once, in
      order of first appearance, whether or not the record is complete. */
  function WorkedDates(rs: seq<Record>, month: string): (ds: seq<string>)
    ensures forall i, j :: 0 <= i < j < |ds| ==> ds[i] != ds[j]
    ensures forall d :: d in ds <==> d in MonthDates(rs, month)
  {
    if |rs| == 0 then []
    else
      var prev := WorkedDates(rs[..|rs| - 1], month);
      var last := rs[|rs| - 1];
      assert MonthDates(rs, month)
          == MonthDates(rs[..|rs| - 1], month) + (if HasPrefix(month, last.date) then {last.date} else {});
      if HasPrefix(month, last.date) && last.date !in prev then prev + [last.date] else prev
  }

  /** A sequence without repeats has as many elements as its set. */
  lemma {:induction false} DistinctCardinality(ds: seq<string>)
    requires forall i, j :: 0 <= i < j < |ds| ==> ds[i] != ds[j]
    ensures |set d | d in ds| == |ds|
    decreases |ds|
  {
    if |ds| > 0 {
      var init := ds[..|ds| - 1];
      DistinctCardinality(init);
      assert (set d | d in ds) == (set d | d in init) + {ds[|ds| - 1]};
      assert ds[|ds| - 1] !in init;
    }
  }

  /** `daysWorked`: the number of distinct dates of the month with any record. */
  function DaysWorked(rs: seq<Record>, month: string): (n: nat)
    ensures n == |MonthDates(rs, month)|
  {
    var ds := WorkedDates(rs, month);
    DistinctCardinality(ds);
    assert (set d | d in ds) == MonthDates(rs, month);
    |ds|
  }

  /** `avgDaily` before rounding: the month's hours per day worked, and 0
      when no day was worked. */
  function AverageDailyHours(monthSeconds: int, daysWorked: nat): (avg: real)
    ensures daysWorked == 0 ==> avg == 0.0
    ensures daysWorked > 0 ==> avg * (daysWorked as real) == (monthSeconds as real) / 3600.0
  {
    if daysWorked > 0 then ((monthSeconds as real) / 3600.0) / (daysWorked as real) else 0.0
  }

  /** The dashboard of one worker's records, relative to `today`. */
  function WorkerStats(rs: seq<Record>, today: string, midnight: int): (s: DashboardStats)
    requires IsDateShape(today)
    ensures s.todaySeconds == SecondsOn(rs, today, midnight)
    ensures s.monthSeconds == SecondsWithPrefix(rs, today[..7], midnight)
    ensures s.yearSeconds == SecondsWithPrefix(rs, today[..4], midnight)
    ensures s.daysWorked == |MonthDates(rs, today[..7])|
    ensures s.avgDailyHours == AverageDailyHours(s.monthSeconds, s.daysWorked)
  {
    var month := today[..7];
    var monthSeconds := SecondsWithPrefix(rs, month, midnight);
    var days := DaysWorked(rs, month);
    DashboardStats(
      SecondsOn(rs, today, midnight),
      monthSeconds,
      days,
      SecondsWithPrefix(rs, today[..4], midnight),
      AverageDailyHours(monthSeconds, days))
  }

  /** `handleDashboardStats`: a non-admin may only see their own
      dashboard; the requested user defaults to the session's. */
  function Dashboard(session: Option<Actor>, requested: Option<string>, rs: seq<Record>, today: string, midnight: int)
    : (r: Result<DashboardStats>)
    requires IsDateShape(today)
    ensures session.None? ==> r == Err(NotAuthenticated)
    ensures session.Some? && requested.Some? && !IsAdmin(session.value) && requested.value != session.value.id ==>
              r == Err(AccessDenied)
    ensures r.Ok? <==>
              session.Some? && (IsAdmin(session.value) || requested.None? || requested.value == session.value.id)
    ensures r.Ok? ==>
      var own := UserRecords(rs, if requested.Some? then requested.value else session.value.id);
      && r.value.todaySeconds == SecondsOn(own, today, midnight)
      && r.value.monthSeconds == SecondsWithPrefix(own, today[..7], midnight)
      && r.value.yearSeconds == SecondsWithPrefix(own, today[..4], midnight)
      && r.value.daysWorked == |MonthDates(own, today[..7])|
      && r.value.avgDailyHours == AverageDailyHours(r.value.monthSeconds, r.value.daysWorked)
  {
    if session.None? then Err(NotAuthenticated)
    else
      var userId := if requested.Some? then requested.value else session.value.id;
      if !IsAdmin(session.value) && userId != session.value.id then Err(AccessDenied)
      else Ok(WorkerStats(UserRecords(rs, userId), today, midnight))
  }

  /** Filtering by a worker twice is filtering once. */
  lemma {:induction false} UserRecordsIdempotent(rs: seq<Record>, userId: string)
    ensures UserRecords(UserRecords(rs, userId), userId) == UserRecords(rs, userId)
    decreases |rs|
  {
    if |rs| > 0 {
      var n := |rs|;
      var prev := UserRecords(rs[..n - 1], userId);
      UserRecordsIdempotent(rs[..n - 1], userId);
      if rs[n - 1].userId == userId {
        FiltersDistribute(prev, [rs[n - 1]], userId);
        assert UserRecords([rs[n - 1]], userId) == [rs[n - 1]] by {
          assert [rs[n - 1]][..0] == [];
        }
      }
    }
  }

  /** Only the requested worker's records count: other workers' records
      can be added or dropped without changing the dashboard. */
  lemma DashboardSeesOnlyOwnRecords(session: Option<Actor>, userId: string, rs: seq<Record>, today: string, midnight: int)
    requires IsDateShape(today)
    ensures Dashboard(session, Some(userId), rs, today, midnight)
         == Dashboard(session, Some(userId), UserRecords(rs, userId), today, midnight)
  {
    UserRecordsIdempotent(rs, userId);
  }

  /** Each record adds exactly its `calculateHours` value, which is negative
      when its exit is earlier than its entry. */
  lemma RecordContribution(rs: seq<Record>, r: Record, prefix: string, midnight: int)
    ensures SecondsWithPrefix(rs + [r], prefix, midnight)
         == SecondsWithPrefix(rs, prefix, midnight)
            + (if HasPrefix(prefix, r.date) && IsComplete(r)
               then StrToTime(r.exitTime, midnight) - StrToTime(r.entryTime, midnight) else 0)
  {
    assert (rs + [r])[..|rs|] == rs;
  }

  /** A night shift entered as 17:00 to 09:00 subtracts eight hours. */
  lemma ReversedShiftSubtracts(midnight: int)
    ensures WorkedSeconds(Record("u", "n", "2024-03-15", "17:00", "09:00", None, None, Some(1), "c", "c"), midnight)
         == -8 * 3600
  {
  }

  /** Today's date carries the month prefix, which carries the year prefix;
      so when no record subtracts time, today <= month <= year. */
  lemma {:induction false} TodayMonthYearOrdered(rs: seq<Record>, today: string, midnight: int)
    requires IsDateShape(today)
    requires forall r :: r in rs ==> WorkedSeconds(r, midnight) >= 0
    ensures SecondsOn(rs, today, midnight) <= SecondsWithPrefix(rs, today[..7], midnight)
    ensures SecondsWithPrefix(rs, today[..7], midnight) <= SecondsWithPrefix(rs, today[..4], midnight)
    decreases |rs|
  {
    if |rs| > 0 {
      var last := rs[|rs| - 1];
      assert forall r :: r in rs[..|rs| - 1] ==> r in rs;
      TodayMonthYearOrdered(rs[..|rs| - 1], today, midnight);
      assert last in rs;
      if last.date == today {
        assert HasPrefix(today[..7], last.date);
      }
      if HasPrefix(today[..7], last.date) {
        assert last.date[..4] == today[..7][..4];
      }
    }
  }

  /** The dashboard's ordering: when none of the worker's records has its
      exit before its entry, todayHours <= monthHours <= yearHours. */
  lemma DashboardOrdered(session: Option<Actor>, requested: Option<string>, rs: seq<Record>, today: string, midnight: int)
    requires IsDateShape(today)
    requires forall r :: r in rs ==> WorkedSeconds(r, midnight) >= 0
    requires Dashboard(session, requested, rs, today, midnight).Ok?
    ensures var s := Dashboard(session, requested, rs, today, midnight).value;
      s.todaySeconds <= s.monthSeconds <= s.yearSeconds
  {
    var userId := if requested.Some? then requested.value else session.value.id;
    TodayMonthYearOrdered(UserRecords(rs, userId), today, midnight);
  }

  /** Two shifts on one date are one day worked. */
  lemma TwoShiftsOneDay()
    ensures var a := Record("u", "n", "2024-03-15", "08:00", "12:00", None, None, Some(1), "c", "c");
      var b := Record("u", "n", "2024-03-15", "13:00", "", None, None, Some(2), "c", "c");
      DaysWorked([a, b], "2024-03") == 1
  {
    var a := Record("u", "n", "2024-03-15", "08:00", "12:00", None, None, Some(1), "c", "c");
    var b := Record("u", "n", "2024-03-15", "13:00", "", None, None, Some(2), "c", "c");
    assert MonthDates([a, b], "2024-03") == {"2024-03-15"};
  }

  /** Records dated `day`: the admin dashboard's `activeToday`. */
  function RecordsOn(rs: seq<Record>, day: string): (n: nat)
    ensures n == |set i | 0 <= i < |rs| && rs[i].date == day|
  {
    if |rs| == 0 then 0
    else
      var n := |rs| - 1;
      assert (set i | 0 <= i < |rs| && rs[i].date == day)
          == (set i | 0 <= i < n && rs[..n][i].date == day) + (if rs[n].date == day then {n} else {});
      RecordsOn(rs[..n], day) + (if rs[n].date == day then 1 else 0)
  }

  /** `handleAdminStats`: admins only. */
  function AdminDashboard<U>(session: Option<Actor>, rs: seq<Record>, users: seq<U>, today: string, midnight: int)
    : (r: Result<AdminStats>)
    ensures session.None? ==> r == Err(NotAuthenticated)
    ensures session.Some? && !IsAdmin(session.value) ==> r == Err(AccessDenied)
    ensures r.Ok? <==> session.Some? && IsAdmin(session.value)
    ensures r.Ok? ==> r.value.totalUsers == |users|
    ensures r.Ok? ==> r.value.activeToday == |set i | 0 <= i < |rs| && rs[i].date == today|
    ensures r.Ok? ==> r.value.totalSecondsToday == SecondsOn(rs, today, midnight)
  {
    if session.None? then Err(NotAuthenticated)
    else if !IsAdmin(session.value) then Err(AccessDenied)
    else Ok(AdminStats(|users|, RecordsOn(rs, today), SecondsOn(rs, today, midnight)))
  }

  /** `activeToday` counts records, not people: one worker with two shifts
      today counts twice. */
  lemma ActiveTodayCountsShifts<U>(users: seq<U>)
    ensures var a := Record("u", "n", "2024-03-15", "08:00", "12:00", None, None, Some(1), "c", "c");
      var b := Record("u", "n", "2024-03-15", "13:00", "17:00", None, None, Some(2), "c", "c");
      var r := AdminDashboard(Some(Actor("admin", "admin")), [a, b], users, "2024-03-15", 0);
      r.Ok? && r.value.activeToday == 2
  {
    var a := Record("u", "n", "2024-03-15", "08:00", "12:00", None, None, Some(1), "c", "c");
    var b := Record("u", "n", "2024-03-15", "13:00", "17:00", None, None, Some(2), "c", "c");
    assert [a, b][..1] == [a];
  }

  /** Hours today across everyone split exactly into one worker's hours
      today and everybody else's. */
  lemma {:induction false} TodaySplitsByWorker(rs: seq<Record>, userId: string, day: string, midnight: int)
    ensures SecondsOn(rs, day, midnight)
         == SecondsOn(UserRecords(rs, userId), day, midnight) + SecondsOn(WithoutUser(rs, userId), day, midnight)
    decreases |rs|
  {
    if |rs| > 0 {
      var n := |rs|;
      var last := rs[n - 1];
      TodaySplitsByWorker(rs[..n - 1], userId, day, midnight);
      var u := UserRecords(rs[..n - 1], userId);
      var w := WithoutUser(rs[..n - 1], userId);
      if last.userId == userId {
        assert (u + [last])[..|u|] == u;
      } else {
        assert (w + [last])[..|w|] == w;
      }
    }
  }
}

=== FILE: users.dfy ===
/** The user-management endpoint: registration, the admin's delete (which
    also removes the user's records), partial update and password reset, a
    user's own password change, and the login rate limiter. Password hashing
    and verification, `uniqid`, `date('c')`, `time()` and PHP's e-mail
    validation are parameters. */
module Users {
  import opened Common
  import opened Records

  /** A stored user. `password` is the hash; `forcePasswordChange` is None
      when the field is absent. */
  datatype User = User(
    id: string,
    email: string,
    password: string,
    nombre: string,
    apellidos: string,
    dni: string,
    afiliacion: string,
    role: string,
    createdAt: string,
    forcePasswordChange: Option<bool>,
    companyProfileId: Option<string>,
    mainSignature: Option<string>)

  /** The one e-mail address that registers as an administrator. */
  const AdminEmail: string := "admin@fichaje.com"

  /** The password an admin reset sets; its hash is a parameter. */
  const TempPassword: string := "temp123456"

  /** The shortest password a user may choose, in bytes. */
  const MinPasswordBytes: nat := 6

  predicate HasEmail(users: seq<User>, email: string) {
    exists i :: 0 <= i < |users| && users[i].email == email
  }

  predicate HasId(users: seq<User>, id: string) {
    exists i :: 0 <= i < |users| && users[i].id == id
  }

  /** Some user already has this non-empty DNI. */
  predicate HasDni(users: seq<User>, dni: string) {
    exists i :: 0 <= i < |users| && !PhpEmpty(users[i].dni) && !PhpEmpty(dni) && users[i].dni == dni
  }

  /** The fields of a registration request; a missing one is "". */
  datatype Registration = Registration(
    nombre: string,
    apellidos: string,
    dni: string,
    email: string,
    password: string,
    afiliacion: string)

  datatype Registered = Registered(users: seq<User>, user: User)

  /** `$email === 'admin@fichaje.com' ? 'admin' : 'employee'`. */
  function RoleFor(email: string): (role: string)
    ensures role == "admin" <==> email == AdminEmail
    ensures role == "employee" <==> email != AdminEmail
  {
    if email == AdminEmail then "admin" else "employee"
  }

  /** `handleRegister`. Every field but the password is trimmed first;
      `emailValid` is PHP's e-mail validation of the trimmed address. */
  function Register(input: Registration, users: seq<User>, emailValid: bool, newId: string, passwordHash: string, now: string)
    : (r: Result<Registered>)
    ensures var email := Trim(input.email);
      var dni := Trim(input.dni);
      var missing := PhpEmpty(Trim(input.nombre)) || PhpEmpty(Trim(input.apellidos)) || PhpEmpty(dni)
                     || PhpEmpty(email) || PhpEmpty(input.password);
      && (missing ==> r == Err(AllFieldsRequired))
      && (!missing && !emailValid ==> r == Err(InvalidEmail))
      && (!missing && emailValid && HasEmail(users, email) ==> r == Err(EmailTaken))
      && (!missing && emailValid && !HasEmail(users, email) && HasDni(users, dni) ==> r == Err(DniTaken))
      && (r.Ok? <==> !missing && emailValid && !HasEmail(users, email) && !HasDni(users, dni))
    ensures r.Ok? ==> r.value.users == users + [r.value.user]
    ensures r.Ok? ==> |r.value.users| == |users| + 1
    ensures r.Ok? ==>
      var u := r.value.user;
      && u.id == newId && u.password == passwordHash && u.createdAt == now
      && u.email == Trim(input.email) && u.nombre == Trim(input.nombre)
      && u.apellidos == Trim(input.apellidos) && u.dni == Trim(input.dni)
      && u.afiliacion == Trim(input.afiliacion)
      && (u.role == "admin" <==> u.email == AdminEmail)
      && (u.role == "employee" <==> u.email != AdminEmail)
      && u.forcePasswordChange.None? && u.companyProfileId.None? && u.mainSignature.None?
  {
    var nombre := Trim(input.nombre);
    var apellidos := Trim(input.apellidos);
    var dni := Trim(input.dni);
    var email := Trim(input.email);
    var afiliacion := Trim(input.afiliacion);
    if PhpEmpty(nombre) || PhpEmpty(apellidos) || PhpEmpty(dni) || PhpEmpty(email) || PhpEmpty(input.password) then
      Err(AllFieldsRequired)
    else if !emailValid then Err(InvalidEmail)
    else if HasEmail(users, email) then Err(EmailTaken)
    else if HasDni(users, dni) then Err(DniTaken)
    else if email == AdminEmail && HasEmail(users, AdminEmail) then Err(AdminAlreadyExists)
    else
      var u := User(newId, email, passwordHash, nombre, apellidos, dni, afiliacion, RoleFor(email), now,
                    None, None, None);
      Ok(Registered(users + [u], u))
  }

  /** The handler's separate "admin already exists" check can never fire:
      the general e-mail check before it already refuses that address. */
  lemma AdminExistsIsUnreachable(input: Registration, users: seq<User>, emailValid: bool, newId: string, passwordHash: string, now: string)
    ensures Register(input, users, emailValid, newId, passwordHash, now) != Err(AdminAlreadyExists)
  {
  }

  /** Registering the admin address twice fails the second time. */
  lemma AdminRegistersOnce(input: Registration, users: seq<User>, newId: string, hash: string, now: string,
                           input2: Registration, newId2: string, hash2: string, now2: string)
    requires Trim(input.email) == AdminEmail && Trim(input2.email) == AdminEmail
    requires Register(input, users, true, newId, hash, now).Ok?
    ensures Register(input2, Register(input, users, true, newId, hash, now).value.users, true, newId2, hash2, now2).Err?
  {
    var us := Register(input, users, true, newId, hash, now).value.users;
    assert us[|users|].email == AdminEmail;
  }

  /** The position of the first user with this id: the `foreach … break`
      loops of the update handlers stop there. */
  function FirstWithId(users: seq<User>, id: string): (k: Option<nat>)
    ensures k.None? <==> !HasId(users, id)
    ensures k.Some? ==> k.value < |users| && users[k.value].id == id
    ensures k.Some? ==> forall j :: 0 <= j < k.value ==> users[j].id != id
  {
    if |users| == 0 then None
    else if users[0].id == id then Some(0)
    else
      var rest := FirstWithId(users[1..], id);
      assert forall j :: 1 <= j < |users| ==> users[j] == users[1..][j - 1];
      if rest.Some? then Some(rest.value + 1) else None
  }

  /** Every user whose id is not `id`, in order. */
  function RemoveUser(users: seq<User>, id: string): (out: seq<User>)
    ensures |out| <= |users|
    ensures forall u :: u in out <==> u in users && u.id != id
    ensures HasId(users, id) ==> |out| < |users|
  {
    if |users| == 0 then []
    else
      var prev := RemoveUser(users[..|users| - 1], id);
      var last := users[|users| - 1];
      assert HasId(users, id) && last.id != id ==> HasId(users[..|users| - 1], id);
      if last.id != id then prev + [last] else prev
  }

  /** Removal keeps the order of the users that stay. */
  lemma {:induction false} RemoveUserDistributes(a: seq<User>, b: seq<User>, id: string)
    ensures RemoveUser(a + b, id) == RemoveUser(a, id) + RemoveUser(b, id)
    decreases |b|
  {
    if |b| > 0 {
      assert (a + b)[..|a + b| - 1] == a + b[..|b| - 1];
      RemoveUserDistributes(a, b[..|b| - 1], id);
    } else {
      assert a + b == a;
    }
  }

  datatype Deleted = Deleted(users: seq<User>, records: seq<Record>)

  /** `handleAdminDeleteUser`: admins only, never themselves; every user
      with the id and every record of that user go, the rest keep their
      order. An unknown id writes nothing. */
  function AdminDeleteUser(session: Option<Actor>, userId: string, users: seq<User>, records: seq<Record>)
    : (r: Result<Deleted>)
    ensures (session.None? || !IsAdmin(session.value)) ==> r == Err(AccessDenied)
    ensures r.Ok? <==>
      session.Some? && IsAdmin(session.value) && !PhpEmpty(userId) && userId != session.value.id && HasId(users, userId)
    ensures session.Some? && IsAdmin(session.value) && PhpEmpty(userId) ==> r == Err(UserIdRequired)
    ensures session.Some? && IsAdmin(session.value) && userId == session.value.id && !PhpEmpty(userId) ==>
      r == Err(CannotDeleteSelf)
    ensures session.Some? && IsAdmin(session.value) && !PhpEmpty(userId) && userId != session.value.id && !HasId(users, userId) ==>
      r == Err(UserNotFound)
    ensures r.Ok? ==> !HasId(r.value.users, userId) && |r.value.users| < |users|
    ensures r.Ok? ==> forall u :: u in r.value.users <==> u in users && u.id != userId
    ensures r.Ok? ==> forall f :: f in r.value.records <==> f in records && f.userId != userId
    ensures r.Ok? ==> r.value.users == RemoveUser(users, userId) && r.value.records == WithoutUser(records, userId)
  {
    if session.None? || !IsAdmin(session.value) then Err(AccessDenied)
    else if PhpEmpty(userId) then Err(UserIdRequired)
    else if userId == session.value.id then Err(CannotDeleteSelf)
    else if !HasId(users, userId) then Err(UserNotFound)
    else Ok(Deleted(RemoveUser(users, userId), WithoutUser(records, userId)))
  }

  /** Deleting a user keeps the records well shifted. */
  lemma AdminDeleteKeepsWellShifted(session: Option<Actor>, userId: string, users: seq<User>, records: seq<Record>)
    requires WellShifted(records)
    requires AdminDeleteUser(session, userId, users, records).Ok?
    ensures WellShifted(AdminDeleteUser(session, userId, users, records).value.records)
  {
    WithoutUserWellShifted(records, userId);
  }

  /** The optional fields of an admin update; None means "not in the request". */
  datatype UserPatch = UserPatch(
    userId: string,
    nombre: Option<string>,
    apellidos: Option<string>,
    dni: Option<string>,
    email: Option<string>,
    afiliacion: Option<string>,
    companyProfileId: Option<string>)

  /** The trimmed new value of a field present in the request, else the old one. */
  function Patched(current: string, field: Option<string>): (v: string)
    ensures field.None? ==> v == current
    ensures field.Some? ==> v == Trim(field.value)
  {
    if field.Some? then Trim(field.value) else current
  }

  /** The user after an admin update: the present fields trimmed (the
      company id copied as is), everything else as it was. */
  function ApplyPatch(u: User, p: UserPatch): (v: User)
    ensures v.id == u.id && v.password == u.password && v.role == u.role && v.createdAt == u.createdAt
    ensures v.forcePasswordChange == u.forcePasswordChange && v.mainSignature == u.mainSignature
    ensures p.companyProfileId.Some? ==> v.companyProfileId == p.companyProfileId
    ensures p.companyProfileId.None? ==> v.companyProfileId == u.companyProfileId
    ensures v.nombre == Patched(u.nombre, p.nombre) && v.apellidos == Patched(u.apellidos, p.apellidos)
    ensures v.dni == Patched(u.dni, p.dni) && v.email == Patched(u.email, p.email)
    ensures v.afiliacion == Patched(u.afiliacion, p.afiliacion)
  {
    u.(nombre := Patched(u.nombre, p.nombre),
       apellidos := Patched(u.apellidos, p.apellidos),
       dni := Patched(u.dni, p.dni),
       email := Patched(u.email, p.email),
       afiliacion := Patched(u.afiliacion, p.afiliacion),
       companyProfileId := if p.companyProfileId.Some? then p.companyProfileId else u.companyProfileId)
  }

  /** Applying the same update twice changes nothing more than applying it once. */
  lemma ApplyPatchIdempotent(u: User, p: UserPatch)
    ensures ApplyPatch(ApplyPatch(u, p), p) == ApplyPatch(u, p)
  {
    if p.nombre.Some? { TrimIdempotent(p.nombre.value); }
    if p.apellidos.Some? { TrimIdempotent(p.apellidos.value); }
    if p.dni.Some? { TrimIdempotent(p.dni.value); }
    if p.email.Some? { TrimIdempotent(p.email.value); }
    if p.afiliacion.Some? { TrimIdempotent(p.afiliacion.value); }
  }

  /** An update with no fields leaves the user as stored. */
  lemma EmptyPatchChangesNothing(u: User, id: string)
    ensures ApplyPatch(u, UserPatch(id, None, None, None, None, None, None)) == u
  {
  }

  /** `handleAdminUpdateUser`: only the first user with the id changes. */
  function AdminUpdateUser(session: Option<Actor>, p: UserPatch, users: seq<User>): (r: Result<seq<User>>)
    ensures (session.None? || !IsAdmin(session.value)) ==> r == Err(AccessDenied)
    ensures session.Some? && IsAdmin(session.value) && PhpEmpty(p.userId) ==> r == Err(UserIdRequired)
    ensures session.Some? && IsAdmin(session.value) && !PhpEmpty(p.userId) && !HasId(users, p.userId) ==>
      r == Err(UserNotFound)
    ensures r.Ok? <==> session.Some? && IsAdmin(session.value) && !PhpEmpty(p.userId) && HasId(users, p.userId)
    ensures r.Ok? ==> |r.value| == |users|
    ensures r.Ok? ==>
      var k := FirstWithId(users, p.userId).value;
      && r.value[k] == ApplyPatch(users[k], p)
      && forall j :: 0 <= j < |users| && j != k ==> r.value[j] == users[j]
  {
    if session.None? || !IsAdmin(session.value) then Err(AccessDenied)
    else if PhpEmpty(p.userId) then Err(UserIdRequired)
    else
      match FirstWithId(users, p.userId)
      case None => Err(UserNotFound)
      case Some(k) => Ok(users[k := ApplyPatch(users[k], p)])
  }

  datatype PasswordChanged = PasswordChanged(users: seq<User>, sessionUser: User)

  /** `handleChangePassword` for the session's own user: at least six bytes;
      the new hash is stored and the forced-change flag removed. */
  function ChangePassword(session: Option<Actor>, newPassword: string, users: seq<User>, newHash: string)
    : (r: Result<PasswordChanged>)
    ensures session.None? ==> r == Err(NotAuthenticated)
    ensures session.Some? && Utf8Length(newPassword) < MinPasswordBytes ==> r == Err(PasswordTooShort)
    ensures session.Some? && Utf8Length(newPassword) >= MinPasswordBytes && !HasId(users, session.value.id) ==>
      r == Err(UserNotFound)
    ensures r.Ok? <==>
      session.Some? && Utf8Length(newPassword) >= MinPasswordBytes && HasId(users, session.value.id)
    ensures r.Ok? ==>
      var k := FirstWithId(users, session.value.id).value;
      && |r.value.users| == |users|
      && r.value.users[k].password == newHash
      && r.value.users[k].forcePasswordChange.None?
      && r.value.users[k] == users[k].(password := newHash, forcePasswordChange := None)
      && r.value.sessionUser == r.value.users[k]
      && forall j :: 0 <= j < |users| && j != k ==> r.value.users[j] == users[j]
  {
    if session.None? then Err(NotAuthenticated)
    else if PhpEmpty(newPassword) || Utf8Length(newPassword) < MinPasswordBytes then Err(PasswordTooShort)
    else
      match FirstWithId(users, session.value.id)
      case None => Err(UserNotFound)
      case Some(k) =>
        var u := users[k].(password := newHash, forcePasswordChange := None);
        Ok(PasswordChanged(users[k := u], u))
  }

  /** `handleAdminResetPassword`: the hash of the temporary password is
      stored and the user must change it at next login. */
  function AdminResetPassword(session: Option<Actor>, userId: string, users: seq<User>, tempHash: string)
    : (r: Result<seq<User>>)
    ensures (session.None? || !IsAdmin(session.value)) ==> r == Err(AccessDenied)
    ensures session.Some? && IsAdmin(session.value) && PhpEmpty(userId) ==> r == Err(UserIdRequired)
    ensures session.Some? && IsAdmin(session.value) && !PhpEmpty(userId) && !HasId(users, userId) ==>
      r == Err(UserNotFound)
    ensures r.Ok? <==> session.Some? && IsAdmin(session.value) && !PhpEmpty(userId) && HasId(users, userId)
    ensures r.Ok? ==>
      var k := FirstWithId(users, userId).value;
      && |r.value| == |users|
      && r.value[k] == users[k].(password := tempHash, forcePasswordChange := Some(true))
      && forall j :: 0 <= j < |users| && j != k ==> r.value[j] == users[j]
  {
    if session.None? || !IsAdmin(session.value) then Err(AccessDenied)
    else if PhpEmpty(userId) then Err(UserIdRequired)
    else
      match FirstWithId(users, userId)
      case None => Err(UserNotFound)
      case Some(k) => Ok(users[k := users[k].(password := tempHash, forcePasswordChange := Some(true))])
  }

  /** A reset forces a change; the user's own change then clears the flag
      and leaves every other user as the reset left them. */
  lemma ResetThenChangeClearsFlag(admin: Actor, userId: string, users: seq<User>, tempHash: string,
                                  newPassword: string, newHash: string)
    requires IsAdmin(admin) && !PhpEmpty(userId) && HasId(users, userId)
    requires Utf8Length(newPassword) >= MinPasswordBytes
    ensures var reset := AdminResetPassword(Some(admin), userId, users, tempHash);
      && reset.Ok?
      && reset.value[FirstWithId(users, userId).value].forcePasswordChange == Some(true)
      && var changed := ChangePassword(Some(Actor(userId, "employee")), newPassword, reset.value, newHash);
         && changed.Ok?
         && changed.value.users[FirstWithId(users, userId).value].forcePasswordChange.None?
  {
    var k := FirstWithId(users, userId).value;
    var reset := AdminResetPassword(Some(admin), userId, users, tempHash).value;
    assert reset[k].id == userId;
    assert forall j :: 0 <= j < k ==> reset[j] == users[j];
    assert FirstWithId(reset, userId) == Some(k) by {
      assert HasId(reset, userId);
      assert forall j :: 0 <= j < k ==> reset[j].id != userId;
    }
  }

  // ----- login rate limiting -----

  /** The per-address attempt counter kept in the session. */
  datatype Window = Window(count: nat, time: int)

  /** At most this many failed logins per window. */
  const MaxAttempts: nat := 5

  /** A window older than this many seconds starts over. */
  const WindowSeconds: int := 60

  datatype LoginStep = LoginStep(window: Window, outcome: Result<User>)

  /** The first user with this e-mail address. */
  function FirstWithEmail(users: seq<User>, email: string): (k: Option<nat>)
    ensures k.None? <==> !HasEmail(users, email)
    ensures k.Some? ==> k.value < |users| && users[k.value].email == email
    ensures k.Some? ==> forall j :: 0 <= j < k.value ==> users[j].email != email
  {
    if |users| == 0 then None
    else if users[0].email == email then Some(0)
    else
      var rest := FirstWithEmail(users[1..], email);
      assert forall j :: 1 <= j < |users| ==> users[j] == users[1..][j - 1];
      if rest.Some? then Some(rest.value + 1) else None
  }

  /** The counter a login attempt at `now` starts from: a fresh one when the
      session has none, reset when the stored one is more than a minute old. */
  function CurrentWindow(window: Option<Window>, now: int): (w: Window)
    ensures window.None? ==> w == Window(0, now)
    ensures window.Some? && now - window.value.time > WindowSeconds ==> w == Window(0, now)
    ensures window.Some? && now - window.value.time <= WindowSeconds ==> w == window.value
  {
    var w := if window.None? then Window(0, now) else window.value;
    if now - w.time > WindowSeconds then Window(0, now) else w
  }

  /** `handleLogin` as a step of the session's rate-limit state. `verify` is
      `password_verify`; `emailValid` is PHP's e-mail validation. */
  function Login(window: Option<Window>, now: int, email: string, password: string, emailValid: bool,
                 users: seq<User>, verify: (string, string) -> bool): (s: LoginStep)
    ensures var w := CurrentWindow(window, now);
      && (w.count >= MaxAttempts ==> s == LoginStep(w, Err(TooManyAttempts)))
      && (s.outcome == Err(UnknownEmail) || s.outcome == Err(WrongPassword) ==>
            s.window == w.(count := w.count + 1))
      && (s.outcome != Err(UnknownEmail) && s.outcome != Err(WrongPassword) ==> s.window == w)
    ensures s.outcome.Ok? ==>
      s.outcome.value in users && s.outcome.value.email == email && verify(password, s.outcome.value.password)
    ensures s.outcome == Err(CredentialsRequired) <==>
      CurrentWindow(window, now).count < MaxAttempts && (PhpEmpty(email) || PhpEmpty(password))
    ensures s.outcome == Err(InvalidEmail) <==>
      CurrentWindow(window, now).count < MaxAttempts && !PhpEmpty(email) && !PhpEmpty(password) && !emailValid
    ensures s.outcome == Err(UnknownEmail) <==>
      CurrentWindow(window, now).count < MaxAttempts && !PhpEmpty(email) && !PhpEmpty(password)
      && emailValid && !HasEmail(users, email)
    ensures s.outcome == Err(WrongPassword) <==>
      CurrentWindow(window, now).count < MaxAttempts && !PhpEmpty(email) && !PhpEmpty(password)
      && emailValid && HasEmail(users, email) && !verify(password, users[FirstWithEmail(users, email).value].password)
    ensures s.outcome.Ok? <==>
      CurrentWindow(window, now).count < MaxAttempts && !PhpEmpty(email) && !PhpEmpty(password)
      && emailValid && HasEmail(users, email) && verify(password, users[FirstWithEmail(users, email).value].password)
    ensures s.outcome.Ok? ==> s.outcome.value == users[FirstWithEmail(users, email).value]
  {
    var w := CurrentWindow(window, now);
    if w.count >= MaxAttempts then LoginStep(w, Err(TooManyAttempts))
    else if PhpEmpty(email) || PhpEmpty(password) then LoginStep(w, Err(CredentialsRequired))
    else if !emailValid then LoginStep(w, Err(InvalidEmail))
    else
      match FirstWithEmail(users, email)
      case None => LoginStep(w.(count := w.count + 1), Err(UnknownEmail))
      case Some(k) =>
        if !verify(password, users[k].password) then LoginStep(w.(count := w.count + 1), Err(WrongPassword))
        else LoginStep(w, Ok(users[k]))
  }

  /** While the window is under a minute old and already holds five
      failures, every attempt is refused and the counter stays. */
  lemma LoginBlockedWithinWindow(w: Window, now: int, email: string, password: string, emailValid: bool,
                                 users: seq<User>, verify: (string, string) -> bool)
    requires w.count >= MaxAttempts && now - w.time <= WindowSeconds
    ensures Login(Some(w), now, email, password, emailValid, users, verify) == LoginStep(w, Err(TooManyAttempts))
  {
  }

  /** The counter never passes five. */
  lemma LoginCountBounded(window: Option<Window>, now: int, email: string, password: string, emailValid: bool,
                          users: seq<User>, verify: (string, string) -> bool)
    requires window.Some? ==> window.value.count <= MaxAttempts
    ensures Login(window, now, email, password, emailValid, users, verify).window.count <= MaxAttempts
  {
  }

  datatype Attempt = Attempt(now: int, email: string, password: string, emailValid: bool)

  predicate IsCredentialFailure(o: Result<User>) {
    o == Err(UnknownEmail) || o == Err(WrongPassword)
  }

  /** Runs a series of login attempts in one session; returns the final
      counter and how many attempts failed on their credentials. */
  function RunLogins(w: Window, attempts: seq<Attempt>, users: seq<User>, verify: (string, string) -> bool)
    : (Window, nat)
    decreases |attempts|
  {
    if |attempts| == 0 then (w, 0)
    else
      var a := attempts[0];
      var step := Login(Some(w), a.now, a.email, a.password, a.emailValid, users, verify);
      var (final, failures) := RunLogins(step.window, attempts[1..], users, verify);
      (final, failures + (if IsCredentialFailure(step.outcome) then 1 else 0))
  }

  /** Within one minute of a window's start at most five credential checks
      fail, however many attempts are made. */
  lemma {:induction false} AtMostFiveFailuresPerWindow(w: Window, attempts: seq<Attempt>, users: seq<User>,
                                                      verify: (string, string) -> bool)
    requires w.count <= MaxAttempts
    requires forall i :: 0 <= i < |attempts| ==> attempts[i].now - w.time <= WindowSeconds
    ensures RunLogins(w, attempts, users, verify).1 + w.count <= MaxAttempts
    ensures RunLogins(w, attempts, users, verify).0.time == w.time
    decreases |attempts|
  {
    if |attempts| > 0 {
      var a := attempts[0];
      var step := Login(Some(w), a.now, a.email, a.password, a.emailValid, users, verify);
      assert step.window.time == w.time;
      assert forall i :: 0 <= i < |attempts[1..]| ==> attempts[1..][i] == attempts[i + 1];
      AtMostFiveFailuresPerWindow(step.window, attempts[1..], users, verify);
    }
  }
}
